=== FILE: README.md ===
# SRT re-segmentation and SubRip timestamp formatting, in Dafny

This project models the caption re-segmenter of `whisper_output_splitter.py`
and the SubRip writer of `whisper_srt.py`, and proves properties of both.

The re-segmenter reads a SubRip (SRT) transcript and cuts every caption
block into shorter captions. Its pipeline has five steps:

1. **Block recognition.** The blocks are found with the pattern
   `(\d+)\n(dd:dd:dd,ddd) --> (dd:dd:dd,ddd)\n(.*)`. This is
   `Blocks.FindBlocks`, an explicit recogniser on characters.
2. **Timestamp parsing.** Timestamps are read as
   hours·3600 + minutes·60 + seconds + milliseconds/1000
   (`Timestamps.ParseTime`).
3. **Coarse split.** Each block's text is cut into clauses at `.`, `?`,
   `|`, `,` and `-`. A `?` stays on the end of its clause. This is
   `Clauses.CoarseSplit`.
4. **Conjunction split.** A clause of ten or more tokens is cut
   recursively before the first coordinating conjunction that has at least
   four tokens on each side (`Clauses.SplitOnConjunction`).
5. **Grouping.** The stripped clauses are grouped greedily into chunks
   (`Chunking.Groups`). Each chunk gets a share of the block's duration
   proportional to its word count (`Chunking.MakeChunks`). The loop strips
   each clause as it takes it; the model strips them all first, which
   gives the same clauses. The word count of a group is a parameter of the
   loop, and a caption passes `Chunking.GroupWordCount`.

The chunks are then laid back to back inside the block's interval
(`Transcript.LayOut`). Every caption is numbered from 1 across the whole
transcript and written out with the splitter's own formatter
(`Timestamps.FormatSrtTime`). That formatter drops the milliseconds.

The writer in `whisper_srt.py` formats timestamps with
`WhisperSrt.ConvertToHms`, which keeps the milliseconds. It numbers the
segments from 1 and concatenates the entries.

The model is purely functional.
- Strings are `seq<char>`.
- Times are exact `real`s.
- The NLTK tokenizer `word_tokenize` is a function parameter
  `tokenize: string -> seq<string>`.
- Failures are values of `Result`: `split_transcript`'s `ValueError` and
  the `IndexError` at `current_sent[0]`.

Modules:

| module | file | contents |
|---|---|---|
| `Results` | results.dfy | `Option` and `Result` |
| `Strings` | strings.dfy | Python whitespace, `strip`/`lstrip`, `' '.join`, `re.split(r'\s+', …)` and word counts, decimal numerals and zero padding |
| `Timestamps` | timestamps.dfy | `convert_srt_time_to_seconds`, `convert_seconds_to_srt_time` |
| `Clauses` | clauses.dfy | the `RegexpTokenizer` split and `split_sentence_on_conjunction` |
| `Chunking` | chunking.dfy | `split_text_into_chunks` |
| `Blocks` | blocks.dfy | the block pattern's `findall` and the written entry layout |
| `Transcript` | transcript.dfy | `split_transcript` |
| `WhisperSrt` | whisper_srt.dfy | `convert_to_hms`, `convert_seg` and the numbered entry list |
| `Projects` | projects.dfy | `get_project_names` |

Where the code and its comments disagree, the model follows the code:
- `!` is not a break character. The run `[^.?|,-]+` of the coarse pattern
  `[^.?|,-]+[?!]?` takes in every `!`, so the optional `[?!]` only ever
  matches a `?`. A `!` is part of its clause, and a clause ends in `!` only
  when a break or the end of the text follows it.
- The docstring of `split_sentence_on_conjunction` says the conjunction is
  dropped. It is kept, as the first token of the second piece.
- `remaining_length` is reduced on every step by the word count of the
  whole pending group, not by the new clause's count.
- A block whose text has only break characters yields no chunks and no
  captions. It is not an error.
- The `(\d+)` of the block pattern is not anchored to the start of a line.
  An index is found after any non-digit text (`Blocks.UnanchoredIndex`).

## Model

| member | source | states |
|---|---|---|
| Timestamps.ParseShape | whisper_output_splitter.py:28-30 | A `HH:MM:SS,mmm` timestamp splits into four digit fields at `:` and `,`. It reads as h·3600 + m·60 + s + ms/1000, which is never negative. |
| Timestamps.ParseFourFields | whisper_output_splitter.py:28-30 | Any four non-empty digit strings joined by `:`, `:`, `,` parse to the clock value of their numbers. |
| Timestamps.ParseClockText | whisper_output_splitter.py:28-30 | Parsing the text of a non-negative clock gives back that clock's value. |
| Timestamps.SplitFourFields | whisper_output_splitter.py:29 | `re.split('[:,]')` of four digit fields joined by `:`, `:`, `,` returns exactly those four fields. |
| Timestamps.SplitterClock | whisper_output_splitter.py:32-35 | The hours field is floor(x/3600). Minutes and seconds lie in 0..59 and the milliseconds are 0. For x ≥ 0 the clock's value is exactly floor(x). |
| Timestamps.Trunc | whisper_output_splitter.py:35 | `int()` truncates toward zero: for x ≥ 0 it is floor(x), and for x < 0 it is the integer n ≤ 0 with n - 1 < x ≤ n, so -0.5 gives 0. |
| Timestamps.WholeSeconds | whisper_output_splitter.py:33-35 | The three fields the formatter computes put floor(x) back together: hours·3600 + minutes·60 + floor(x) mod 60 = floor(x). |
| Timestamps.FormatSrtTimeRoundTrip | whisper_output_splitter.py:28-36 | For x ≥ 0, parsing the formatted time gives floor(x), and the milliseconds field is `000`. |
| Timestamps.FormatSrtTimeShape | whisper_output_splitter.py:32-36 | For 0 ≤ x < 100 hours, the formatted time has the exact `dd:dd:dd,ddd` shape the block pattern accepts. |
| Timestamps.NegativeTimeSkew | whisper_output_splitter.py:33-35 | For a negative time the fields do not add up: -0.5 s formats as hour -1, minute 59, second 0, which is -60 s. |
| Clauses.CoarseSplit | whisper_output_splitter.py:63-68 | Every clause is non-empty, starts with a non-break, and holds a break only as a final `?`. The clauses tile the text in order without overlap, and only break characters are dropped. |
| Clauses.CoarseSplitUnbroken | whisper_output_splitter.py:63-68 | A non-empty text without breaks is one clause, itself. |
| Clauses.CoarseSplitAllBreaks | whisper_output_splitter.py:63-68 | A text made only of breaks has no clauses. |
| Clauses.CoarseSplitClause | whisper_output_splitter.py:63 | A break-free run followed by a break is one clause, which keeps the break only when it is `?`. The rest of the text is split on its own. |
| Clauses.CoarseSplitBreak | whisper_output_splitter.py:63-68 | findall skips a break where no match starts, so a leading break adds no clause. With `CoarseSplitClause`, `CoarseSplitUnbroken` and the empty text, this fixes the split of every text, so each clause is the longest match at its place. |
| Clauses.FirstConjunction | whisper_output_splitter.py:45-52 | Finds the first index in a range whose token is one of the seven conjunctions. When it finds none, no index in the range holds a conjunction. |
| Clauses.SplitOnConjunction | whisper_output_splitter.py:40-57 | The pieces flatten back to the tokens in order. Fewer than 10 tokens is one piece. Every piece after the first starts with a conjunction, and no piece can be cut again. From 10 tokens on, every piece has at least 4 tokens. Termination is proved on the token count: each recursive call gets strictly fewer tokens. |
| Clauses.SplitUnsplittable | whisper_output_splitter.py:48-57 | A clause of fewer than 10 tokens, or one with no conjunction at 4 ≤ i < len-4, comes back whole. |
| Clauses.NoConjunctionNoCut | whisper_output_splitter.py:51-57 | A clause with no conjunction at any index 4 ≤ i < len-4 comes back whole, whatever its length. |
| Clauses.FirstCutAtFirstConjunction | whisper_output_splitter.py:51-55 | The first cut is at the first conjunction with index 4 ≤ i < len-4. The first piece is the tokens before it, and the second piece starts with the conjunction. |
| Clauses.CutIffSplittable | whisper_output_splitter.py:48-57 | A clause is cut into two or more pieces if and only if it has 10 or more tokens and a conjunction at some index 4 ≤ i < len-4. |
| Clauses.ClauseTexts | whisper_output_splitter.py:48-57 | There is one text per piece. A clause that is not cut comes back as its own original text. |
| Clauses.ClauseTextsKeepTokens | whisper_output_splitter.py:53-55 | When a clause is cut, splitting each piece's text on whitespace gives back exactly that piece's tokens. |
| Strings.Strip | whisper_output_splitter.py:81-91 | The stripped text is a contiguous slice of the input that neither starts nor ends with whitespace. Only whitespace is removed, on both sides. |
| Strings.SplitWhitespace | whisper_output_splitter.py:69-83 | `re.split(r'\s+')` returns at least one field. No field holds whitespace, and only the first and last fields can be empty. |
| Strings.SplitWhitespaceKeepsText | whisper_output_splitter.py:69-83 | The fields, put back together, are the text with every whitespace character removed. |
| Strings.WordCountIsRunsPlusOne | whisper_output_splitter.py:69-83 | The word count is one more than the number of maximal whitespace runs, so a leading space adds an empty field. |
| Strings.SplitJoinInverse | whisper_output_splitter.py:53-54 | Splitting the space-join of non-empty, space-free tokens on whitespace gives back the tokens. |
| Strings.WordCountJoin | whisper_output_splitter.py:82-83 | The word count of a space-joined group of non-empty stripped clauses is the sum of their word counts. |
| Strings.NatToString | whisper_output_splitter.py:129 | `str(n)` is a non-empty decimal numeral with no leading zero, whose value is n. |
| Strings.FormatIntValue | whisper_output_splitter.py:36 | `{n:0w}` is n's numeral zero-padded to width w. A negative n gives `-` followed by the digits of -n. |
| Chunking.Sentences | whisper_output_splitter.py:71 | Chaining the conjunction pieces never gives fewer sentences than there are clauses. |
| Chunking.SentencesOne | whisper_output_splitter.py:71 | A single clause is chained as exactly its own pieces' texts. |
| Chunking.SentencesAppend | whisper_output_splitter.py:71 | Chaining is in order: the sentences of two runs of clauses are those of the first run followed by those of the second. With `SentencesOne` this fixes the result as every clause's pieces, clause after clause. |
| Chunking.SentencesWhole | whisper_output_splitter.py:71 | When no clause can be cut, chaining the pieces gives back the clauses unchanged. |
| Chunking.StripAll | whisper_output_splitter.py:81 | Every clause is stripped, in order. |
| Chunking.GroupsShape | whisper_output_splitter.py:74-92 | The groups flatten to the pending group followed by the clauses in order, so each clause lands in exactly one group. No group is empty, nothing is left buffered, and every group but the last has more than 2 words. |
| Chunking.GroupsFlatten | whisper_output_splitter.py:78-92 | Reading the groups in order gives back the pending group and then every clause, and the input has at least one group when it has a clause. |
| Chunking.GroupsSizes | whisper_output_splitter.py:86-92 | No group is empty, and a group closes before the last clause only when it has more than 2 words. |
| Chunking.RunningRemainingStep | whisper_output_splitter.py:78-84 | While a group stays open, each step lowers `remaining_length` by the word count of the whole pending group, including the clause just added. |
| Chunking.ClosesAtTest | whisper_output_splitter.py:81-86 | The loop's test at clause i holds if and only if the pending group up to i has more than 2 words and the running count after step i is above 3, or i is the last clause. |
| Chunking.FirstClose | whisper_output_splitter.py:86 | The group being built always closes, at the latest at the last clause. |
| Chunking.FirstCloseIsFirst | whisper_output_splitter.py:80-86 | `FirstClose` is the first clause where the test holds: it holds there and at no earlier clause of the group. |
| Chunking.GroupsFirstClose | whisper_output_splitter.py:80-92 | The first group ends exactly at the first clause passing the test and holds the pending clauses and all clauses up to it. The loop then restarts with an empty group and the running count lowered by every step, the closing one included. |
| Chunking.GroupsLast | whisper_output_splitter.py:86 | The last clause always closes its group, whatever the counts. |
| Chunking.GroupsCarry | whisper_output_splitter.py:80-86 | For any pending group and any clauses still to come, a clause that fails the flush test joins the pending group. The loop goes on with the running count lowered by the whole group's size. |
| Chunking.GroupsFlush | whisper_output_splitter.py:80-92 | For any pending group, a clause that passes the flush test closes the group with itself as its last clause. The loop goes on with an empty group and the running count lowered by the closed group's size. |
| Chunking.UpperFirst | whisper_output_splitter.py:90 | Only the first character changes, and it changes only when it is a lower-case ASCII letter. |
| Chunking.MakeChunks | whisper_output_splitter.py:86-91 | Chunks are made if and only if no group joins to the empty text. There is one chunk per group, whose text is the stripped, capitalised join and whose duration is duration·words/total. |
| Chunking.MakeChunksErrorIff | whisper_output_splitter.py:90 | For groups as the loop builds them, `current_sent[0]` fails exactly when the last group is the single empty clause. |
| Chunking.GroupsErrorIff | whisper_output_splitter.py:74-92 | The grouping loop fails exactly when its last group is the single empty clause. |
| Chunking.ChunkErrorIff | whisper_output_splitter.py:60-95 | `split_text_into_chunks` fails exactly when the text's last group is the single empty clause. |
| Chunking.SplitTextIntoChunks | whisper_output_splitter.py:60-95 | A text with no clauses gives no chunks. A text with clauses that succeeds gives at least one chunk. |
| Chunking.ShareSum | whisper_output_splitter.py:88 | The chunk durations add up to the share of the total of the groups' word counts. |
| Chunking.ShareSumExact | whisper_output_splitter.py:69-88 | For a non-zero duration, the chunks' durations add up to the block's duration if and only if the groups' word counts add up to `total_words`. |
| Chunking.CaptionShareSum | whisper_output_splitter.py:60-95 | For a non-zero duration, a text's chunk durations sum to the duration if and only if its groups' word counts sum to the text's word count. |
| Chunking.OneGroupOneChunk | whisper_output_splitter.py:80-91 | A caption whose clauses form a single non-empty group gives exactly one chunk: the group's stripped, capitalised text, for the group's share of the duration. |
| Chunking.WholeCaptionOneChunk | whisper_output_splitter.py:60-95 | A stripped, break-free, unsplittable text becomes one chunk: itself with its first letter capitalised, lasting the whole duration. |
| Chunking.JoinedClausesOverrun | whisper_output_splitter.py:69-88 | `"a,b"` with one-word clauses counts as one word in total but two in its chunk. The single chunk therefore lasts twice the block's duration. |
| Chunking.BlankCaptionFails | whisper_output_splitter.py:81-90 | A text of whitespace only strips to the empty clause, so `current_sent[0]` fails. |
| Chunking.UpperFirstStripped | whisper_output_splitter.py:90-91 | Capitalising a stripped text keeps it stripped, so the final `strip()` leaves it unchanged. |
| Blocks.Enumerate | whisper_srt.py:22 | Items are numbered consecutively from the start value, in order. |
| Blocks.FindBlocks | whisper_output_splitter.py:103-104 | Every recognised block has a digit index, two timestamps of the exact `dd:dd:dd,ddd` shape, and a one-line text. |
| Blocks.MatchAt | whisper_output_splitter.py:103 | A match found is well formed and spans at least 32 characters. Text that does not start with a digit has no match there. |
| Blocks.FindBlocksRoundTrip | whisper_output_splitter.py:103-131 | Written out as `index\nSTART --> END\ntext\n\n` and read back, any list of well-formed blocks is recognised as exactly itself. |
| Blocks.NoDigitNoBlock | whisper_output_splitter.py:103-106 | A text with no digit contains no block. |
| Blocks.UnanchoredIndex | whisper_output_splitter.py:103 | A block is still found after a prefix without digits, because the index is not anchored to a line start. |
| Transcript.ReadBlock | whisper_output_splitter.py:110-112 | The block's start and end are the parsed values of its timestamps, both non-negative. Its text is unchanged. |
| Transcript.LayOutBackToBack | whisper_output_splitter.py:116-123 | Captions keep their chunks' texts and durations. The first starts at the block start, each starts where the previous ended, and the last ends at the start plus the sum of durations. |
| Transcript.LastEndIffSum | whisper_output_splitter.py:117-123 | The last caption ends at a given time if and only if the durations add up to that time minus the start. |
| Transcript.BlockEndsOnTime | whisper_output_splitter.py:112-123 | In a block of non-zero length, the last caption ends at the block's end if and only if the chunks' word counts add up to the text's word count. |
| Transcript.AllCaptionsOk | whisper_output_splitter.py:109-114 | The transcript's captions are produced if and only if every block's chunking succeeds. |
| Transcript.AllCaptionsConcat | whisper_output_splitter.py:109-131 | The captions are each block's laid-out chunks, block after block in order. |
| Transcript.AllCaptionsAppend | whisper_output_splitter.py:109-131 | The captions of two runs of blocks are the first run's captions followed by the second's. |
| Transcript.SplitTranscript | whisper_output_splitter.py:99-134 | Fails with the missing-time error exactly when no block is recognised. Otherwise it succeeds exactly when every block's chunking succeeds. |
| Transcript.EntryRead | whisper_output_splitter.py:128-131 | An entry for a one-line caption under 100 hours is a well-formed block. Its index is n, its text is the caption's, and its timestamps read back as the whole seconds of the caption's times. |
| Transcript.EntriesRead | whisper_output_splitter.py:127-131 | The entries are numbered 1, 2, … with no gap, one per caption in order. |
| Transcript.SplitTranscriptReadsBack | whisper_output_splitter.py:99-134 | The output is recognised by the same block pattern as the captions in order, numbered from 1. Each keeps its text, and its times are truncated to whole seconds. |
| WhisperSrt.DivModSpec | whisper_srt.py:8-9 | Python `divmod` on floats: the remainder lies in [0, d), d·q + r = x, and q is floor(x/d). |
| WhisperSrt.HmsClockFields | whisper_srt.py:7-11 | Hours are floor(x/3600), minutes and seconds lie in 0..59, and milliseconds are floor(frac(x)·1000) in 0..999. The fields rebuild floor(x), and the clock's value v satisfies v ≤ x < v + 0.001. |
| WhisperSrt.MillisBound | whisper_srt.py:10 | The milliseconds of a fraction lie in 0..999 and stay within one millisecond below it. |
| WhisperSrt.ConvertToHmsReadsBack | whisper_srt.py:7-12 | For x ≥ 0 the text has hours of at least 2 digits, 2-digit minutes and seconds, and 3-digit milliseconds. It reads back as a value v with v ≤ x < v + 0.001. |
| WhisperSrt.ConvertToHmsShape | whisper_srt.py:7-12 | Below 100 hours, the text has the exact `dd:dd:dd,ddd` shape. |
| WhisperSrt.FormattersDifferOnlyInMillis | whisper_srt.py:7-12 | For x ≥ 0 the two formatters agree on hours, minutes and seconds. Only `convert_to_hms` keeps the milliseconds, so it never reads back below the splitter's floor(x). |
| WhisperSrt.EntryLayout | whisper_srt.py:14-23 | `"{i}\n"` + `convert_seg` is exactly the SubRip entry of index i, both timestamps and the left-stripped text. |
| WhisperSrt.SrtEntries | whisper_srt.py:22-23 | There is one entry per segment, and the i-th entry is `"{i}\n"` followed by that segment's `convert_seg`, counting from 1. |
| WhisperSrt.WrittenDocument | whisper_srt.py:22-30 | The written file is exactly the SubRip document of the numbered segment blocks. |
| WhisperSrt.WhisperOutputReadsBack | whisper_srt.py:14-30 | The splitter's block pattern reads the written file back as one block per segment, numbered from 1. Each block has the left-stripped text and timestamps at most a millisecond below the segment's times. |
| Projects.PathJoin | whisper_output_splitter.py:166-168 | POSIX `os.path.join`: the result ends with b. An absolute b replaces a. Otherwise a `/` is put in unless a is empty or already ends with one. |
| Projects.DirName | whisper_output_splitter.py:168 | `os.path.dirname` returns a prefix of the path, empty exactly when the path has no `/`. Otherwise the path is the directory, then a run of slashes, then a slash-free name. The run is empty only for a root directory made of slashes, and the directory ends in a slash only in that case. |
| Projects.FirstField | whisper_output_splitter.py:167 | `split("_")[0]` is the longest underscore-free prefix. |
| Projects.DirNameOfJoin | whisper_output_splitter.py:168 | `dirname` undoes `join` for a slash-free name on any directory `dirname` can return: empty, the root, or one not ending with a slash. |
| Projects.BaseNameOfJoin | whisper_output_splitter.py:166-168 | `basename` undoes `join`: joining a slash-free name onto any directory and taking the base name gives the name back. |
| Projects.JoinedDir | whisper_output_splitter.py:168 | The output directory's parent is the project list's directory and its own name is the given slash-free name, wherever the list is. |
| Projects.ProjectLayout | whisper_output_splitter.py:164-172 | The output directory sits next to the project list, wherever the list is, including a bare file name or a file at the root. It is named `{file_date}_{subject_tag}_{subject_name}_{campaign}`, with `file_date` the video name up to its first `_`. The source video path ends in the video's name. The three media files share the stem `{subject_name}_{subject_tag}` and end in `.mp4`, `.wav` and `.srt`. |

## Left out

- File and process I/O is not modelled: reading files, writing the `.srt`
  file, `ffmpeg`/`whisper.cpp` subprocesses, `argparse`/`main`, CSV project
  lists and NLTK downloads. `whisper_srt.py`'s `writelines` is modelled as
  string concatenation (`WhisperSrt.WriteLines`).
- `word_tokenize` (NLTK) is a parameter. `Clauses.SplitOnConjunction`
  recurses on the token slices `words[:i]` and `words[i:]` themselves, not
  on the stripped space-joins of those slices re-tokenised as the source
  does (`whisper_output_splitter.py:53-56`). The model therefore takes
  re-tokenising a space-joined piece to give back its tokens.
  `Clauses.ClauseTexts`, `Chunking.Sentences` and the chunks inherit this
  assumption. `Clauses.ClauseTextsKeepTokens` is the evidence that a
  whitespace tokenizer meets it for well-formed tokens; NLTK's tokenizer,
  which splits punctuation and contractions, is not shown to.
- Floating point is modelled with exact reals. Drift in
  `timeline += duration`, and rounding in `//`, `%` and `divmod` on
  floats, are not modelled.
- `Chunking.UpperFirst`: `str.upper` is modelled for ASCII letters only.
  Other characters are left unchanged, including those Unicode would
  upper-case or expand (such as `ß`).
- `convert_seconds_to_srt_time` formats its integer seconds with `06.3f`
  and then turns the `.` into `,`. For seconds in 0..59 this is the
  two-digit seconds followed by `,000`, which is how `Timestamps.ClockText`
  writes a clock whose milliseconds are 0.
- `max_words` in `split_transcript` is never used by the code, so it is not
  a parameter of the model.
- `Projects.GetProjectNames` has no contract of its own. Its five results
  are stated by `Projects.ProjectLayout`, in terms of the modelled
  `os.path` functions (`Projects.DirName`, `Projects.BaseName`).
- Projects.ProjectLayout: the layout is stated only when the video name,
  the subject name, the tag and the campaign have no `/`. With a slash in
  one of them, `os.path.join` would nest or replace directories, and the
  parent and base name of the output directory are no longer those parts.
- In `whisper_srt.py`, the Whisper model loading and transcription and the
  `tqdm` progress bar are left out. Segments are given as a list.
- The OpenAI, docx and PDF code after line 31 of `whisper_srt.py` is left
  out, as are `scene_summarizer.py` and `google_dump_comments.py`. They are
  network and library glue with no logic of their own to model.
- Chunking.Groups has no contract of its own. Its behaviour is stated by
  `Chunking.GroupsShape`, `Chunking.GroupsFirstClose` and the lemmas on
  the loop's test.
- Blocks.FindBlocks: `\d` is read as the ASCII digits `0`-`9`
  (`Strings.IsDigit`), here and in `Timestamps.IsTimeShape` and
  `Blocks.DigitRun`. Python's `\d` on `str` also matches other Unicode
  decimal digits such as `١`, and `float()` reads them. A transcript
  written with such digits has blocks the source finds and the model does
  not; there it can return the missing-time error.
- WhisperSrt.WhisperOutputReadsBack: the read-back is proved only for
  segments whose text has no line break and whose times lie in
  [0, 100 hours). A longer hour field does not fit the pattern's `\d{2}`,
  and `(.*)` stops at a line break.
- Transcript.SplitTranscriptReadsBack: the read-back is proved only for
  captions whose text is one line and whose times are under 100 hours. A
  longer hour field does not fit the pattern's `\d{2}`, and `(.*)` stops
  at a line break.

=== FILE: blocks.dfy ===
/** SubRip blocks as the splitter reads and writes them. Reading is the
    `findall` of `(\d+)\n(\d{2}:\d{2}:\d{2},\d{3}) --> (\d{2}:\d{2}:\d{2},\d{3})\n(.*)`
    over the whole transcript; writing is `i\nSTART --> END\ntext\n\n`,
    the layout both programs emit. */
module Blocks {
  import opened Strings
  import opened Results
  import opened Timestamps

  /** One recognised block: the index digits, the two captured timestamps
      and the one text line, all as text. */
  datatype RawBlock = RawBlock(index: string, start: string, end: string, text: string)

  /** The separator between the two timestamps. */
  const Arrow: string := " --> "

  predicate NoNewline(s: string) {
    forall i :: 0 <= i < |s| ==> s[i] != '\n'
  }

  /** What a recognised block always looks like: a non-empty run of digits,
      two timestamps of the captured shape, and a text without a line
      break. */
  predicate WellFormed(b: RawBlock) {
    && b.index != [] && IsDigits(b.index)
    && IsTimeShape(b.start) && IsTimeShape(b.end)
    && NoNewline(b.text)
  }

  /** The line between the index and the text: a line break, the two
      timestamps around the arrow, and another line break. */
  function TimeLine(start: string, end: string): string
  {
    "\n" + start + Arrow + end + "\n"
  }

  /** The part of an entry the pattern matches. */
  function EntryBody(b: RawBlock): string
  {
    b.index + TimeLine(b.start, b.end) + b.text
  }

  /** One written entry: `index\nSTART --> END\ntext\n\n`. */
  function EntryText(b: RawBlock): string
  {
    EntryBody(b) + "\n\n"
  }

  /** Python `enumerate(xs, start)`: each item paired with its number,
      counting up from `start` without a gap. */
  function Enumerate<T>(xs: seq<T>, start: nat): (r: seq<(nat, T)>)
    ensures |r| == |xs|
    ensures forall i :: 0 <= i < |r| ==> r[i].0 == start + i && r[i].1 == xs[i]
  {
    if xs == [] then [] else [(start, xs[0])] + Enumerate(xs[1..], start + 1)
  }

  /** The written entries, one after another. */
  function Document(bs: seq<RawBlock>): string
  {
    if bs == [] then "" else EntryText(bs[0]) + Document(bs[1..])
  }

  // ---------------------------------------------------------------------
  // Recognition

  /** `\d+`, greedy: the number of ASCII digits `s` starts with. */
  function DigitRun(s: string): (n: nat)
    ensures n <= |s|
    ensures forall i :: 0 <= i < n ==> IsDigit(s[i])
    ensures n == |s| || !IsDigit(s[n])
  {
    if s != [] && IsDigit(s[0]) then 1 + DigitRun(s[1..]) else 0
  }

  /** `.*`, greedy: the length of the first line of `s`. */
  function LineLength(s: string): (n: nat)
    ensures n <= |s|
    ensures forall i :: 0 <= i < n ==> s[i] != '\n'
    ensures n == |s| || s[n] == '\n'
  {
    if s != [] && s[0] != '\n' then 1 + LineLength(s[1..]) else 0
  }

  /** `t` starts with a line break, a timestamp, the arrow, a timestamp and
      another line break: 31 characters in all. */
  predicate IsTimeLine(t: string) {
    && |t| >= 31 && t[0] == '\n'
    && IsTimeShape(t[1..13]) && t[13..18] == Arrow
    && IsTimeShape(t[18..30]) && t[30] == '\n'
  }

  /** The match of the block pattern starting at the first character of
      `s`, with its length. A match found is well formed and spans at least
      the index digit and the 31 characters of the time line. */
  function MatchAt(s: string): (r: Option<(RawBlock, nat)>)
    ensures r.Some? ==> WellFormed(r.value.0) && 32 <= r.value.1 <= |s|
    ensures s == [] || !IsDigit(s[0]) ==> r.None?
  {
    var k := DigitRun(s);
    if k == 0 then None else MatchAfterIndex(s[..k], s[k..])
  }

  /** The rest of the match once the index digits `index` are read and `t`
      is what follows them. */
  function MatchAfterIndex(index: string, t: string): (r: Option<(RawBlock, nat)>)
    requires index != [] && IsDigits(index)
    ensures r.Some? ==> WellFormed(r.value.0) && |index| + 31 <= r.value.1 <= |index| + |t|
  {
    if !IsTimeLine(t) then None
    else
      var u := t[31..];
      var n := LineLength(u);
      Some((RawBlock(index, t[1..13], t[18..30], u[..n]), |index| + 31 + n))
  }

  /** `pattern.findall(transcript)`: scanning left to right, a match is
      taken where one starts and the scan resumes after it; elsewhere one
      character is skipped. */
  function FindBlocks(s: string): (r: seq<RawBlock>)
    decreases |s|
    ensures forall i :: 0 <= i < |r| ==> WellFormed(r[i])
  {
    if s == [] then []
    else
      match MatchAt(s)
      case Some((b, n)) =>
        var rest := FindBlocks(s[n..]);
        assert ([b] + rest)[1..] == rest;
        [b] + rest
      case None => FindBlocks(s[1..])
  }

  // ---------------------------------------------------------------------
  // Reading back what was written

  lemma {:induction false} DigitRunIs(s: string, n: nat)
    requires n <= |s|
    requires forall i :: 0 <= i < n ==> IsDigit(s[i])
    requires n == |s| || !IsDigit(s[n])
    ensures DigitRun(s) == n
  {
    if n > 0 {
      DigitRunIs(s[1..], n - 1);
    }
  }

  lemma {:induction false} LineLengthIs(s: string, n: nat)
    requires n <= |s|
    requires forall i :: 0 <= i < n ==> s[i] != '\n'
    requires n == |s| || s[n] == '\n'
    ensures LineLength(s) == n
  {
    if n > 0 {
      LineLengthIs(s[1..], n - 1);
    }
  }

  lemma TimeLineShape(start: string, end: string, u: string)
    requires IsTimeShape(start) && IsTimeShape(end)
    ensures var t := TimeLine(start, end) + u;
      IsTimeLine(t) && t[1..13] == start && t[18..30] == end && t[31..] == u
  {
    var t := TimeLine(start, end) + u;
    assert t[1..13] == start;
    assert t[13..18] == Arrow;
    assert t[18..30] == end;
    assert t[31..] == u;
  }

  /** A well-formed entry body followed by a line break, or by nothing, is
      matched exactly: the match gives back the block and spans the body. */
  lemma MatchEntry(b: RawBlock, rest: string)
    requires WellFormed(b)
    requires rest == [] || rest[0] == '\n'
    ensures MatchAt(EntryBody(b) + rest) == Some((b, |EntryBody(b)|))
  {
    var s := EntryBody(b) + rest;
    var k := |b.index|;
    var t := TimeLine(b.start, b.end) + (b.text + rest);
    assert s == b.index + t;
    assert s[..k] == b.index;
    assert s[k..] == t;
    DigitRunIs(s, k);
    MatchTimeLine(b, rest);
  }

  lemma MatchTimeLine(b: RawBlock, rest: string)
    requires WellFormed(b)
    requires rest == [] || rest[0] == '\n'
    ensures MatchAfterIndex(b.index, TimeLine(b.start, b.end) + (b.text + rest))
         == Some((b, |EntryBody(b)|))
  {
    var u := b.text + rest;
    TimeLineShape(b.start, b.end, u);
    LineLengthIs(u, |b.text|);
    assert u[..|b.text|] == b.text;
  }

  /** A line break never starts a match, so the scan steps over it. */
  lemma SkipNewline(s: string)
    ensures FindBlocks("\n" + s) == FindBlocks(s)
  {
    assert ("\n" + s)[1..] == s;
  }

  /** The recogniser reads a document of well-formed entries back into the
      very blocks that were written, in order. */
  lemma {:induction false} FindBlocksRoundTrip(bs: seq<RawBlock>)
    requires forall i :: 0 <= i < |bs| ==> WellFormed(bs[i])
    ensures FindBlocks(Document(bs)) == bs
  {
    if bs != [] {
      var b := bs[0];
      var rest := Document(bs[1..]);
      FindAfterEntry(b, rest);
      FindBlocksRoundTrip(bs[1..]);
      assert [b] + bs[1..] == bs;
    }
  }

  /** An entry followed by its blank line is read as that block, and the
      scan goes on after the blank line. */
  lemma FindAfterEntry(b: RawBlock, rest: string)
    requires WellFormed(b)
    ensures FindBlocks(EntryText(b) + rest) == [b] + FindBlocks(rest)
  {
    var body := EntryBody(b);
    var s := body + ("\n" + ("\n" + rest));
    assert EntryText(b) + rest == s;
    MatchEntry(b, "\n" + ("\n" + rest));
    assert s[|body|..] == "\n" + ("\n" + rest);
    SkipNewline("\n" + rest);
    SkipNewline(rest);
  }

  /** A text with no digit holds no block. */
  lemma {:induction false} NoDigitNoBlock(s: string)
    requires forall i :: 0 <= i < |s| ==> !IsDigit(s[i])
    ensures FindBlocks(s) == []
  {
    if s != [] {
      NoDigitNoBlock(s[1..]);
    }
  }

  /** The index digits need not start a line: a match may begin in the
      middle of a line, right after any non-digit. */
  lemma UnanchoredIndex(prefix: string, b: RawBlock)
    requires WellFormed(b)
    requires prefix != [] && forall i :: 0 <= i < |prefix| ==> !IsDigit(prefix[i])
    ensures FindBlocks(prefix + EntryBody(b)) == [b]
  {
    var s := prefix + EntryBody(b);
    SkipNonDigits(prefix, EntryBody(b));
    MatchEntry(b, []);
    assert EntryBody(b) + [] == EntryBody(b);
    assert EntryBody(b)[|EntryBody(b)|..] == [];
  }

  lemma {:induction false} SkipNonDigits(prefix: string, s: string)
    requires forall i :: 0 <= i < |prefix| ==> !IsDigit(prefix[i])
    ensures FindBlocks(prefix + s) == FindBlocks(s)
  {
    if prefix != [] {
      var t := prefix + s;
      assert t[0] == prefix[0];
      assert MatchAt(t).None?;
      assert FindBlocks(t) == FindBlocks(t[1..]);
      assert t[1..] == prefix[1..] + s;
      SkipNonDigits(prefix[1..], s);
    } else {
      assert prefix + s == s;
    }
  }
}

=== FILE: chunking.dfy ===
/** The rest of `split_text_into_chunks`: the clauses of one caption are
    gathered into groups, each group becomes one chunk of text, and the
    caption's duration is shared among the chunks in proportion to their
    word counts. The word tokenizer is a parameter of the model. */
module Chunking {
  import opened Strings
  import opened Results
  import opened Clauses

  /** A group is flushed early only once it has more than `MinWords` words
      and more than `MinRemainingWords` words are still unaccounted for. */
  const MinWords: int := 2
  const MinRemainingWords: int := 3

  /** One chunk of a caption: its text and its share of the duration. */
  datatype Chunk = Chunk(text: string, duration: real)

  /** `current_sent[0]` on a group whose text is empty raises `IndexError`. */
  datatype ChunkError = EmptyChunkText

  // ---------------------------------------------------------------------
  // Clauses of one caption

  /** `itertools.chain` of `split_sentence_on_conjunction` over the coarse
      clauses, each clause tokenized by `tokenize`. */
  function Sentences(clauses: seq<string>, tokenize: string -> seq<string>): (r: seq<string>)
    ensures |r| >= |clauses|
  {
    if clauses == [] then []
    else
      var first := ClauseTexts(clauses[0], tokenize(clauses[0]));
      var rest := Sentences(clauses[1..], tokenize);
      assert |first| >= 1;
      first + rest
  }

  /** When no clause can be cut, chaining the pieces gives back the
      clauses unchanged. */
  lemma {:induction false} SentencesWhole(clauses: seq<string>, tokenize: string -> seq<string>)
    requires forall i :: 0 <= i < |clauses| ==> Unsplittable(tokenize(clauses[i]))
    ensures Sentences(clauses, tokenize) == clauses
  {
    if clauses != [] {
      SentencesWhole(clauses[1..], tokenize);
      assert ClauseTexts(clauses[0], tokenize(clauses[0])) == [clauses[0]];
      assert [clauses[0]] + clauses[1..] == clauses;
    }
  }

  /** A single clause is chained as its own pieces. */
  lemma SentencesOne(x: string, tokenize: string -> seq<string>)
    ensures Sentences([x], tokenize) == ClauseTexts(x, tokenize(x))
  {
    assert [x][1..] == [];
    assert ClauseTexts(x, tokenize(x)) + [] == ClauseTexts(x, tokenize(x));
  }

  /** Chaining is in order: the pieces of two runs of clauses are the
      pieces of the first run followed by those of the second. */
  lemma {:induction false} SentencesAppend(a: seq<string>, b: seq<string>, tokenize: string -> seq<string>)
    ensures Sentences(a + b, tokenize) == Sentences(a, tokenize) + Sentences(b, tokenize)
  {
    if a == [] {
      assert a + b == b;
    } else {
      assert (a + b)[0] == a[0] && (a + b)[1..] == a[1..] + b;
      SentencesAppend(a[1..], b, tokenize);
      AppendAssoc(ClauseTexts(a[0], tokenize(a[0])), Sentences(a[1..], tokenize), Sentences(b, tokenize));
    }
  }

  /** Every item stripped, in order. */
  function StripAll(xs: seq<string>): (r: seq<string>)
    ensures |r| == |xs|
    ensures forall i :: 0 <= i < |xs| ==> r[i] == Strip(xs[i])
  {
    if xs == [] then [] else [Strip(xs[0])] + StripAll(xs[1..])
  }

  // ---------------------------------------------------------------------
  // Grouping

  /** The test that closes the current group. */
  predicate Flushes(length: int, remaining: int, last: bool) {
    (length > MinWords && remaining > MinRemainingWords) || last
  }

  /** `current_length`: the number of whitespace-separated fields of the
      group's space-joined text. */
  function GroupWordCount(g: seq<string>): int {
    WordCount(Join(g))
  }

  /** The grouping loop from the current state on, over clauses that are
      already stripped (the loop strips each clause as it takes it, which
      is the same as stripping them all first). `pending` is the group
      being built (`current_chunks`), `remaining` the running
      `remaining_length`, and `size` the word count of a group, which the
      caption passes as `GroupWordCount`. Each clause joins the pending
      group, the running count drops by the size of the whole pending
      group on every step, flushed or not, and the group closes when
      `Flushes` holds for its size, the reduced count and whether the
      clause is the last one. */
  function Groups(size: seq<string> -> int, clauses: seq<string>, pending: seq<string>, remaining: int): seq<seq<string>>
    decreases |clauses|
  {
    if clauses == [] then []
    else
      var group := pending + [clauses[0]];
      var left := remaining - size(group);
      if Flushes(size(group), left, |clauses| == 1) then [group] + Groups(size, clauses[1..], [], left)
      else Groups(size, clauses[1..], group, left)
  }

  /** The groups flatten back to the pending group followed by the
      clauses, none is empty, and every group but the last is bigger than
      `MinWords`; no clauses make no groups, whatever was pending. */
  lemma {:induction false} GroupsShape(size: seq<string> -> int, clauses: seq<string>, pending: seq<string>, remaining: int)
    ensures var r := Groups(size, clauses, pending, remaining);
      && (clauses == [] ==> r == [])
      && (clauses != [] ==> |r| >= 1 && Concat(r) == pending + clauses)
      && (forall j :: 0 <= j < |r| ==> r[j] != [])
      && (forall j :: 0 <= j < |r| - 1 ==> size(r[j]) > MinWords)
  {
    GroupsFlatten(size, clauses, pending, remaining);
    GroupsSizes(size, clauses, pending, remaining);
  }

  lemma {:induction false} GroupsFlatten(size: seq<string> -> int, clauses: seq<string>, pending: seq<string>, remaining: int)
    ensures var r := Groups(size, clauses, pending, remaining);
      && (clauses == [] ==> r == [])
      && (clauses != [] ==> |r| >= 1 && Concat(r) == pending + clauses)
    decreases |clauses|
  {
    if clauses != [] {
      var group := pending + [clauses[0]];
      var left := remaining - size(group);
      var tail := clauses[1..];
      assert clauses == [clauses[0]] + tail;
      if Flushes(size(group), left, |clauses| == 1) {
        var rest := Groups(size, tail, [], left);
        assert Groups(size, clauses, pending, remaining) == [group] + rest;
        GroupsFlatten(size, tail, [], left);
        ConcatCons(group, rest);
        if tail != [] {
          AppendAssoc(pending, [clauses[0]], tail);
        }
      } else {
        GroupsFlatten(size, tail, group, left);
        AppendAssoc(pending, [clauses[0]], tail);
      }
    }
  }

  /** Every group is non-empty, and every group but the last is longer
      than `MIN_WORDS` by the measure `size`. */
  predicate WellSized(size: seq<string> -> int, r: seq<seq<string>>) {
    && (forall j :: 0 <= j < |r| ==> r[j] != [])
    && (forall j :: 0 <= j < |r| - 1 ==> size(r[j]) > MinWords)
  }

  lemma {:induction false} GroupsSizes(size: seq<string> -> int, clauses: seq<string>, pending: seq<string>, remaining: int)
    ensures WellSized(size, Groups(size, clauses, pending, remaining))
    decreases |clauses|
  {
    if clauses != [] {
      var group := pending + [clauses[0]];
      var left := remaining - size(group);
      var tail := clauses[1..];
      if Flushes(size(group), left, |clauses| == 1) {
        var rest := Groups(size, tail, [], left);
        assert Groups(size, clauses, pending, remaining) == [group] + rest;
        assert rest != [] ==> size(group) > MinWords by {
          if tail == [] {
            assert rest == [];
          } else {
            assert |clauses| != 1;
          }
        }
        GroupsSizes(size, tail, [], left);
        ClosedGroupShape(size, group, rest);
      } else {
        GroupsSizes(size, tail, group, left);
      }
    }
  }

  /** A closed group in front of well-sized groups keeps them well
      sized, provided it is big enough whenever others follow it. */
  lemma ClosedGroupShape(size: seq<string> -> int, group: seq<string>, rest: seq<seq<string>>)
    requires group != [] && WellSized(size, rest)
    requires rest != [] ==> size(group) > MinWords
    ensures WellSized(size, [group] + rest)
  {
    var r := [group] + rest;
    forall j | 0 <= j < |r|
      ensures r[j] != []
      ensures j < |r| - 1 ==> size(r[j]) > MinWords
    {
      if j > 0 {
        assert r[j] == rest[j - 1];
      }
    }
  }

  /** `remaining_length` after the first `n` clauses have joined a group
      that stays open: each step subtracts the size of the whole pending
      group. */
  function RunningRemaining(size: seq<string> -> int, clauses: seq<string>, pending: seq<string>, remaining: int, n: nat): int
    requires n <= |clauses|
    decreases n
  {
    if n == 0 then remaining
    else
      var group := pending + [clauses[0]];
      RunningRemaining(size, clauses[1..], group, remaining - size(group), n - 1)
  }

  /** Each step of an open group lowers the running count by the size of
      the group as it stands after the step's clause has joined it. */
  lemma {:induction false} RunningRemainingStep(size: seq<string> -> int, clauses: seq<string>, pending: seq<string>, remaining: int, n: nat)
    requires n < |clauses|
    ensures RunningRemaining(size, clauses, pending, remaining, n + 1)
         == RunningRemaining(size, clauses, pending, remaining, n) - size(pending + clauses[..n + 1])
    decreases n
  {
    var group := pending + [clauses[0]];
    var tail := clauses[1..];
    if n == 0 {
      assert clauses[..1] == [clauses[0]];
    } else {
      RunningRemainingStep(size, tail, group, remaining - size(group), n - 1);
      assert group + tail[..n] == pending + clauses[..n + 1];
    }
  }

  /** Whether the loop closes the group at clause `i`, the group having
      stayed open since clause 0. */
  predicate ClosesAt(size: seq<string> -> int, clauses: seq<string>, pending: seq<string>, remaining: int, i: nat)
    requires i < |clauses|
    decreases i
  {
    var group := pending + [clauses[0]];
    var left := remaining - size(group);
    if i == 0 then Flushes(size(group), left, |clauses| == 1)
    else ClosesAt(size, clauses[1..], group, left, i - 1)
  }

  /** The test at clause `i` is `Flushes` of the size of the pending group
      holding the clauses up to `i`, of the running count after `i + 1`
      steps, and of whether `i` is the last clause. */
  lemma {:induction false} ClosesAtTest(size: seq<string> -> int, clauses: seq<string>, pending: seq<string>, remaining: int, i: nat)
    requires i < |clauses|
    ensures ClosesAt(size, clauses, pending, remaining, i)
        <==> Flushes(size(pending + clauses[..i + 1]),
                     RunningRemaining(size, clauses, pending, remaining, i + 1),
                     i == |clauses| - 1)
    decreases i
  {
    var group := pending + [clauses[0]];
    if i == 0 {
      assert clauses[..1] == [clauses[0]];
    } else {
      var tail := clauses[1..];
      ClosesAtTest(size, tail, group, remaining - size(group), i - 1);
      assert group + tail[..i] == pending + clauses[..i + 1];
    }
  }

  /** The clause at which the loop first closes the group it is building.
      The last clause always closes it, so there is one. */
  function FirstClose(size: seq<string> -> int, clauses: seq<string>, pending: seq<string>, remaining: int): (k: nat)
    requires clauses != []
    ensures k < |clauses|
    decreases |clauses|
  {
    var group := pending + [clauses[0]];
    var left := remaining - size(group);
    if Flushes(size(group), left, |clauses| == 1) then 0
    else 1 + FirstClose(size, clauses[1..], group, left)
  }

  /** `FirstClose` is where the test first holds: it holds there and at no
      earlier clause. */
  lemma {:induction false} FirstCloseIsFirst(size: seq<string> -> int, clauses: seq<string>, pending: seq<string>, remaining: int)
    requires clauses != []
    ensures ClosesAt(size, clauses, pending, remaining, FirstClose(size, clauses, pending, remaining))
    ensures forall i :: 0 <= i < FirstClose(size, clauses, pending, remaining) ==> !ClosesAt(size, clauses, pending, remaining, i)
    decreases |clauses|
  {
    var k := FirstClose(size, clauses, pending, remaining);
    if k > 0 {
      var group := pending + [clauses[0]];
      var left := remaining - size(group);
      var tail := clauses[1..];
      FirstCloseIsFirst(size, tail, group, left);
      forall i | 0 <= i < k
        ensures !ClosesAt(size, clauses, pending, remaining, i)
      {
        if i > 0 {
          assert ClosesAt(size, clauses, pending, remaining, i) == ClosesAt(size, tail, group, left, i - 1);
        }
      }
    }
  }

  /** The first group closes at `FirstClose`: it holds the pending clauses
      and the clauses up to that one, and the loop goes on from the next
      clause with an empty group and the running count lowered by every
      step so far, the closing step included. */
  lemma {:induction false} GroupsFirstClose(size: seq<string> -> int, clauses: seq<string>, pending: seq<string>, remaining: int)
    requires clauses != []
    ensures var k := FirstClose(size, clauses, pending, remaining);
      Groups(size, clauses, pending, remaining)
        == [pending + clauses[..k + 1]] + Groups(size, clauses[k + 1..], [], RunningRemaining(size, clauses, pending, remaining, k + 1))
    decreases |clauses|
  {
    var k := FirstClose(size, clauses, pending, remaining);
    var group := pending + [clauses[0]];
    if k == 0 {
      assert clauses[..1] == [clauses[0]];
    } else {
      var tail := clauses[1..];
      GroupsFirstClose(size, tail, group, remaining - size(group));
      assert tail[k..] == clauses[k + 1..];
      assert group + tail[..k] == pending + clauses[..k + 1];
    }
  }

  /** The space-join of a non-empty group is empty exactly when the group is
      a single empty clause. */
  lemma JoinEmpty(g: seq<string>)
    requires g != []
    ensures Join(g) == "" <==> g == [""]
  {
    if |g| >= 2 {
      assert |Join(g)| >= 1;
    }
  }

  // ---------------------------------------------------------------------
  // Chunks

  /** ASCII `str.upper` of one character. */
  function UpperChar(c: char): (u: char)
    ensures 'a' <= c <= 'z' ==> 'A' <= u <= 'Z' && u as int == c as int - 32
    ensures !('a' <= c <= 'z') ==> u == c
  {
    if 'a' <= c <= 'z' then (c as int - 32) as char else c
  }

  /** `s[0].upper() + s[1:]`, defined on non-empty text only. */
  function UpperFirst(s: string): (r: string)
    requires s != []
    ensures |r| == |s| && r[0] == UpperChar(s[0]) && r[1..] == s[1..]
  {
    [UpperChar(s[0])] + s[1..]
  }

  /** A chunk's share of the caption's duration: `duration` scaled by the
      chunk's word count over the caption's. */
  function Share(duration: real, words: nat, total: nat): real
    requires total >= 1
  {
    duration * words as real / total as real
  }

  /** The chunks of the groups: each group's space-joined text with its
      first character upper-cased and then stripped, and the share
      `duration * words / total` of the caption's duration, where `words`
      counts the whitespace-separated fields of the joined text. Any group
      whose joined text is empty aborts the whole caption. */
  function MakeChunks(groups: seq<seq<string>>, duration: real, total: nat): (r: Result<seq<Chunk>, ChunkError>)
    requires total >= 1
    ensures r.Ok? <==> forall j :: 0 <= j < |groups| ==> Join(groups[j]) != ""
    ensures r.Ok? ==> |r.value| == |groups|
    ensures r.Ok? ==> forall j :: 0 <= j < |groups| ==>
      && r.value[j].text == Strip(UpperFirst(Join(groups[j])))
      && r.value[j].duration == Share(duration, WordCount(Join(groups[j])), total)
  {
    if groups == [] then Ok([])
    else
      var s := Join(groups[0]);
      if s == "" then Err(EmptyChunkText)
      else
        var rest := MakeChunks(groups[1..], duration, total);
        if rest.Err? then Err(rest.error)
        else
          var c := Chunk(Strip(UpperFirst(s)), Share(duration, WordCount(s), total));
          assert ([c] + rest.value)[1..] == rest.value;
          Ok([c] + rest.value)
  }

  /** The total of the chunks' durations. */
  function SumDurations(cs: seq<Chunk>): real
  {
    if cs == [] then 0.0 else cs[0].duration + SumDurations(cs[1..])
  }

  /** The total word count of the groups' joined texts. */
  function GroupWords(groups: seq<seq<string>>): nat
  {
    if groups == [] then 0 else WordCount(Join(groups[0])) + GroupWords(groups[1..])
  }

  /** Shares of the same duration add as their word counts do. */
  lemma ShareAdd(duration: real, a: nat, b: nat, total: nat)
    requires total >= 1
    ensures Share(duration, a, total) + Share(duration, b, total) == Share(duration, a + b, total)
  {
    var t := total as real;
    assert duration * (a + b) as real == duration * a as real + duration * b as real;
    assert (duration * a as real + duration * b as real) / t
        == duration * a as real / t + duration * b as real / t;
  }

  /** Chunks whose durations are the groups' shares have, together, the
      share of all the groups' words. */
  lemma {:induction false} SumOfShares(cs: seq<Chunk>, groups: seq<seq<string>>, duration: real, total: nat)
    requires total >= 1 && |cs| == |groups|
    requires forall j :: 0 <= j < |cs| ==> cs[j].duration == Share(duration, WordCount(Join(groups[j])), total)
    ensures SumDurations(cs) == Share(duration, GroupWords(groups), total)
  {
    if cs != [] {
      SumOfShares(cs[1..], groups[1..], duration, total);
      ShareAdd(duration, WordCount(Join(groups[0])), GroupWords(groups[1..]), total);
    }
  }

  /** The chunks' durations add up to the caption's duration scaled by the
      groups' word count over the caption's word count. */
  lemma ShareSum(groups: seq<seq<string>>, duration: real, total: nat)
    requires total >= 1
    requires MakeChunks(groups, duration, total).Ok?
    ensures SumDurations(MakeChunks(groups, duration, total).value)
         == Share(duration, GroupWords(groups), total)
  {
    SumOfShares(MakeChunks(groups, duration, total).value, groups, duration, total);
  }

  /** A share is the whole duration exactly when its word count is the
      whole count, unless the duration is zero. */
  lemma ShareWhole(duration: real, words: nat, total: nat)
    requires total >= 1 && duration != 0.0
    ensures Share(duration, words, total) == duration <==> words == total
  {
    var w, t := words as real, total as real;
    if Share(duration, words, total) == duration {
      assert duration * w == duration * t;
      assert duration * (w - t) == 0.0;
    }
  }

  /** For a caption of non-zero duration, the chunks' shares add up to the
      whole duration exactly when the groups' word counts add up to the
      caption's word count. */
  lemma ShareSumExact(groups: seq<seq<string>>, duration: real, total: nat)
    requires total >= 1 && duration != 0.0
    requires MakeChunks(groups, duration, total).Ok?
    ensures SumDurations(MakeChunks(groups, duration, total).value) == duration
        <==> GroupWords(groups) == total
  {
    ShareSum(groups, duration, total);
    ShareWhole(duration, GroupWords(groups), total);
  }

  // ---------------------------------------------------------------------
  // The whole caption

  /** `split_text_into_chunks(text, duration)` with `word_tokenize` given as
      `tokenize`. The running count and the shares' denominator both start
      from the whitespace-field count of the raw text. */
  function SplitTextIntoChunks(text: string, duration: real, tokenize: string -> seq<string>): (r: Result<seq<Chunk>, ChunkError>)
    ensures CoarseSplit(text) == [] ==> r == Ok([])
    ensures r.Ok? && CoarseSplit(text) != [] ==> |r.value| >= 1
  {
    GroupsShape(GroupWordCount, StripAll(Sentences(CoarseSplit(text), tokenize)), [], WordCount(text));
    MakeChunks(CaptionGroups(text, tokenize), duration, WordCount(text))
  }

  /** The groups of a caption's stripped clauses, sized by their word
      counts, with the running count starting from the whitespace-field
      count of the raw text. */
  function CaptionGroups(text: string, tokenize: string -> seq<string>): seq<seq<string>>
  {
    Groups(GroupWordCount, StripAll(Sentences(CoarseSplit(text), tokenize)), [], WordCount(text))
  }

  /** Chunking the groups fails exactly when the last group is a lone
      clause that strips to nothing. */
  lemma GroupsErrorIff(clauses: seq<string>, remaining: int, duration: real, total: nat)
    requires total >= 1
    ensures var gs := Groups(GroupWordCount, clauses, [], remaining);
      MakeChunks(gs, duration, total).Err? <==> gs != [] && gs[|gs| - 1] == [""]
  {
    var gs := Groups(GroupWordCount, clauses, [], remaining);
    GroupsShape(GroupWordCount, clauses, [], remaining);

    MakeChunksErrorIff(gs, duration, total);
  }

  /** Among non-empty groups where every group but the last has more than
      `MinWords` words, chunking fails exactly when the last is a lone
      empty clause. */
  lemma MakeChunksErrorIff(gs: seq<seq<string>>, duration: real, total: nat)
    requires total >= 1
    requires forall j :: 0 <= j < |gs| ==> gs[j] != []
    requires forall j :: 0 <= j < |gs| - 1 ==> GroupWordCount(gs[j]) > MinWords
    ensures MakeChunks(gs, duration, total).Err? <==> gs != [] && gs[|gs| - 1] == [""]
  {
    assert WordCount("") == 1 by {
      assert SplitWhitespace("") == [""];
    }
    forall j | 0 <= j < |gs|
      ensures Join(gs[j]) == "" <==> gs[j] == [""]
    {
      JoinEmpty(gs[j]);
    }
  }

  /** A caption fails exactly when its last group is a lone clause that
      strips to nothing. */
  lemma ChunkErrorIff(text: string, duration: real, tokenize: string -> seq<string>)
    ensures var gs := CaptionGroups(text, tokenize);
      SplitTextIntoChunks(text, duration, tokenize).Err? <==> gs != [] && gs[|gs| - 1] == [""]
  {
    var total := WordCount(text);
    GroupsErrorIff(StripAll(Sentences(CoarseSplit(text), tokenize)), total, duration, total);
  }

  /** For a caption of non-zero duration, the chunks' shares add up to the
      whole duration exactly when the groups' word counts add up to the
      word count of the caption's text. */
  lemma CaptionShareSum(text: string, duration: real, tokenize: string -> seq<string>)
    requires duration != 0.0
    requires SplitTextIntoChunks(text, duration, tokenize).Ok?
    ensures SumDurations(SplitTextIntoChunks(text, duration, tokenize).value) == duration
        <==> GroupWords(CaptionGroups(text, tokenize)) == WordCount(text)
  {
    ShareSumExact(CaptionGroups(text, tokenize), duration, WordCount(text));
  }

  // ---------------------------------------------------------------------
  // Particular captions

  /** The last clause closes the pending group. */
  lemma GroupsLast(size: seq<string> -> int, c: string, pending: seq<string>, remaining: int)
    ensures Groups(size, [c], pending, remaining) == [pending + [c]]
  {
    assert [c][1..] == [];
  }

  /** A clause that does not pass the flush test, with clauses still to
      come, joins the pending group, and the running count drops by the
      whole group's size. */
  lemma GroupsCarry(size: seq<string> -> int, c: string, rest: seq<string>, pending: seq<string>, remaining: int)
    requires rest != []
    requires !Flushes(size(pending + [c]), remaining - size(pending + [c]), false)
    ensures Groups(size, [c] + rest, pending, remaining)
         == Groups(size, rest, pending + [c], remaining - size(pending + [c]))
  {
    assert ([c] + rest)[1..] == rest;
  }

  /** A clause that passes the flush test closes the pending group with
      it, and the loop goes on with an empty group. */
  lemma GroupsFlush(size: seq<string> -> int, c: string, rest: seq<string>, pending: seq<string>, remaining: int)
    requires Flushes(size(pending + [c]), remaining - size(pending + [c]), rest == [])
    ensures Groups(size, [c] + rest, pending, remaining)
         == [pending + [c]] + Groups(size, rest, [], remaining - size(pending + [c]))
  {
    assert ([c] + rest)[1..] == rest;
  }

  /** One group, one chunk. */
  lemma MakeOneChunk(g: seq<string>, duration: real, total: nat)
    requires total >= 1 && Join(g) != ""
    ensures MakeChunks([g], duration, total)
         == Ok([Chunk(Strip(UpperFirst(Join(g))), Share(duration, WordCount(Join(g)), total))])
  {
    var r := MakeChunks([g], duration, total);
    assert r.Ok? && |r.value| == 1;
    assert r.value[0] == Chunk(Strip(UpperFirst(Join(g))), Share(duration, WordCount(Join(g)), total));
    assert r.value == [r.value[0]];
  }

  lemma ShareOfOne(duration: real, words: nat)
    ensures Share(duration, words, 1) == words as real * duration
  {
  }

  lemma ShareOfAll(duration: real, total: nat)
    requires total >= 1
    ensures Share(duration, total, total) == duration
  {
  }

  /** Upper-casing the first character keeps a stripped text stripped, so
      the final strip of a chunk's text changes nothing. */
  lemma UpperFirstStripped(s: string)
    requires s != [] && IsStripped(s)
    ensures IsStripped(UpperFirst(s))
    ensures Strip(UpperFirst(s)) == UpperFirst(s)
  {
    var u := UpperFirst(s);
    assert u[|u| - 1] == if |s| == 1 then UpperChar(s[0]) else s[|s| - 1];
    StripOfStripped(u);
  }

  /** A caption with no break character and no cut gives one chunk holding
      its whole text, first character upper-cased, for its whole duration. */
  lemma WholeCaptionOneChunk(text: string, duration: real, tokenize: string -> seq<string>)
    requires text != [] && IsStripped(text)
    requires forall i :: 0 <= i < |text| ==> !IsBreak(text[i])
    requires Unsplittable(tokenize(text))
    ensures SplitTextIntoChunks(text, duration, tokenize) == Ok([Chunk(UpperFirst(text), duration)])
  {
    var total := WordCount(text);
    CoarseSplitUnbroken(text);
    SentencesWhole([text], tokenize);
    StripOfStripped(text);
    assert StripAll([text]) == [text];
    assert SplitTextIntoChunks(text, duration, tokenize)
        == MakeChunks(Groups(GroupWordCount, [text], [], total), duration, total);
    GroupsLast(GroupWordCount, text, [], total);
    assert [] + [text] == [text];
    MakeOneChunk([text], duration, total);
    UpperFirstStripped(text);
    ShareOfAll(duration, total);
  }

  /** A single word without breaks that the conjunction split leaves
      whole. */
  predicate OneWordClause(a: string, tokenize: string -> seq<string>) {
    && a != [] && NoSpace(a)
    && (forall i :: 0 <= i < |a| ==> !IsBreak(a[i]))
    && Unsplittable(tokenize(a))
  }

  /** Chunking succeeded with exactly one chunk, of text `t` lasting `d`. */
  predicate SingleChunk(r: Result<seq<Chunk>, ChunkError>, t: string, d: real) {
    r.Ok? && |r.value| == 1 && r.value[0].text == t && r.value[0].duration == d
  }

  /** Two words joined by a comma with no space count as one word of the
      caption but as two words of its single chunk, so the chunk is given
      twice the caption's duration. */
  lemma JoinedClausesOverrun(a: string, b: string, duration: real, tokenize: string -> seq<string>)
    requires OneWordClause(a, tokenize) && OneWordClause(b, tokenize)
    ensures SingleChunk(SplitTextIntoChunks(a + "," + b, duration, tokenize), UpperFirst(a + " " + b), 2.0 * duration)
  {
    OneGroupOneChunk(a + "," + b, duration, tokenize, [a, b], UpperFirst(a + " " + b), 2.0 * duration) by {
      CommaChunk(a, b, duration, tokenize);
    }
  }

  /** The caption `a,b` makes the one group `[a, b]`, whose chunk is the
      two words joined by a space for twice the caption's duration. */
  lemma CommaChunk(a: string, b: string, duration: real, tokenize: string -> seq<string>)
    requires OneWordClause(a, tokenize) && OneWordClause(b, tokenize)
    ensures CaptionGroups(a + "," + b, tokenize) == [[a, b]]
    ensures WordCount(a + "," + b) == 1 && Join([a, b]) != ""
    ensures Strip(UpperFirst(Join([a, b]))) == UpperFirst(a + " " + b)
    ensures Share(duration, WordCount(Join([a, b])), WordCount(a + "," + b)) == 2.0 * duration
  {
    CommaCaption(a, b, tokenize);
    CommaChunkText(a, b);
    ShareOfOne(duration, 2);
  }

  /** The comma splits the caption into the two words, which form one
      group, while the whole caption counts as one word. */
  lemma CommaCaption(a: string, b: string, tokenize: string -> seq<string>)
    requires OneWordClause(a, tokenize) && OneWordClause(b, tokenize)
    ensures CaptionGroups(a + "," + b, tokenize) == [[a, b]]
    ensures WordCount(a + "," + b) == 1 && WordCount(Join([a, b])) == 2
  {
    CommaClauses(a, b);
    SentencesWhole([a, b], tokenize);
    CommaWordCounts(a, b);
    CommaGroups(a, b);
  }

  /** The single chunk's text is the two words joined by a space, first
      character upper-cased. */
  lemma CommaChunkText(a: string, b: string)
    requires a != [] && NoSpace(a) && b != [] && NoSpace(b)
    ensures Join([a, b]) == a + " " + b
    ensures Strip(UpperFirst(Join([a, b]))) == UpperFirst(a + " " + b)
  {
    var t := a + " " + b;
    assert Join([a, b]) == t;
    assert IsStripped(t) by {
      assert t[0] == a[0] && t[|t| - 1] == b[|b| - 1];
    }
    UpperFirstStripped(t);
  }

  /** A caption whose clauses form one group gives one chunk: the group's
      text for the group's share. */
  lemma OneGroupOneChunk(text: string, duration: real, tokenize: string -> seq<string>,
                         g: seq<string>, t: string, d: real)
    requires CaptionGroups(text, tokenize) == [g]
    requires WordCount(text) >= 1 && Join(g) != ""
    requires t == Strip(UpperFirst(Join(g))) && d == Share(duration, WordCount(Join(g)), WordCount(text))
    ensures SingleChunk(SplitTextIntoChunks(text, duration, tokenize), t, d)
  {
    MakeOneChunk(g, duration, WordCount(text));
  }

  lemma CommaClauses(a: string, b: string)
    requires a != [] && forall i :: 0 <= i < |a| ==> !IsBreak(a[i])
    requires b != [] && forall i :: 0 <= i < |b| ==> !IsBreak(b[i])
    ensures CoarseSplit(a + "," + b) == [a, b]
  {
    assert a + "," + b == a + [','] + b;
    CoarseSplitClause(a, ',', b);
    CoarseSplitUnbroken(b);
  }

  lemma CommaWordCounts(a: string, b: string)
    requires a != [] && NoSpace(a) && forall i :: 0 <= i < |a| ==> !IsBreak(a[i])
    requires b != [] && NoSpace(b)
    ensures WordCount(a + "," + b) == 1
    ensures WordCount(a) == 1 && WordCount(Join([a, b])) == 2
  {
    CommaNoSpace(a, b);
    SplitNoSpace(a + "," + b);
    SplitNoSpace(a);
    SplitJoinInverse([a, b]);
  }

  lemma CommaNoSpace(a: string, b: string)
    requires NoSpace(a) && NoSpace(b)
    ensures NoSpace(a + "," + b)
  {
    var text := a + "," + b;
    forall i | 0 <= i < |text| ensures !IsSpace(text[i]) {
      if i < |a| {
        assert text[i] == a[i];
      } else if i > |a| {
        assert text[i] == b[i - |a| - 1];
      }
    }
  }

  lemma CommaGroups(a: string, b: string)
    requires a != [] && NoSpace(a) && b != [] && NoSpace(b)
    requires WordCount(a) == 1 && WordCount(Join([a, b])) == 2
    ensures Groups(GroupWordCount, StripAll([a, b]), [], 1) == [[a, b]]
  {
    StripOfStripped(a);
    StripOfStripped(b);
    assert StripAll([a, b]) == [a, b];
    assert GroupWordCount([a]) == 1 by {
      assert Join([a]) == a;
    }
    assert [] + [a] == [a];
    assert [a, b] == [a] + [b];
    GroupsCarry(GroupWordCount, a, [b], [], 1);
    GroupsLast(GroupWordCount, b, [a], 0);
    assert [a] + [b] == [a, b];
  }

  /** A caption of nothing but whitespace makes one clause that strips to
      nothing, and chunking it fails. */
  lemma BlankCaptionFails(text: string, duration: real, tokenize: string -> seq<string>)
    requires text != [] && forall i :: 0 <= i < |text| ==> IsSpace(text[i])
    requires Unsplittable(tokenize(text))
    ensures SplitTextIntoChunks(text, duration, tokenize) == Err(EmptyChunkText)
  {
    assert forall i :: 0 <= i < |text| ==> !IsBreak(text[i]);
    CoarseSplitUnbroken(text);
    SentencesWhole([text], tokenize);
    assert Strip(text) == "";
    assert StripAll([text]) == [""];
    GroupsLast(GroupWordCount, "", [], WordCount(text));
    assert Join([""]) == "";
  }
}

=== FILE: clauses.dfy ===
/** Cutting a caption's text into clauses, in two stages:
    the coarse tokenizer `[^.?|,-]+[?!]?` of `split_text_into_chunks`, and
    the recursive `split_sentence_on_conjunction`, which cuts a clause of ten
    or more tokens in front of its first coordinating conjunction. */
module Clauses {
  import opened Strings
  import opened Results

  // ---------------------------------------------------------------------
  // Coarse split

  /** The characters the coarse pattern's class `[^.?|,-]` excludes. `!` is
      not among them. */
  predicate IsBreak(c: char) {
    c == '.' || c == '?' || c == '|' || c == ',' || c == '-'
  }

  /** The length of the longest break-free prefix of `s`. */
  function RunLength(s: string): (n: nat)
    ensures n <= |s|
    ensures forall i :: 0 <= i < n ==> !IsBreak(s[i])
    ensures n == |s| || IsBreak(s[n])
  {
    if s != [] && !IsBreak(s[0]) then 1 + RunLength(s[1..]) else 0
  }

  /** The length of the match of `[^.?|,-]+[?!]?` at the start of `s`:
      the greedy break-free run, plus one optional `?` or `!` after it. */
  function MatchLength(s: string): (n: nat)
    requires s != [] && !IsBreak(s[0])
    ensures 0 < n <= |s|
  {
    var k := RunLength(s);
    if k < |s| && (s[k] == '?' || s[k] == '!') then k + 1 else k
  }

  /** A clause as the coarse pattern produces it: non-empty, made of
      non-break characters, except that its last character may be `?`. */
  predicate IsCoarseClause(p: string) {
    && |p| > 0
    && !IsBreak(p[0])
    && (forall i :: 0 <= i < |p| - 1 ==> !IsBreak(p[i]))
    && (!IsBreak(p[|p| - 1]) || p[|p| - 1] == '?')
  }

  /** `s` is the clauses `ps`, in order and without overlap, with nothing
      but break characters before, between and after them. */
  predicate Tiles(ps: seq<string>, s: string)
    decreases |s|
  {
    if |s| == 0 then ps == []
    else if IsBreak(s[0]) then Tiles(ps, s[1..])
    else
      && |ps| > 0
      && 0 < |ps[0]| <= |s|
      && s[..|ps[0]|] == ps[0]
      && Tiles(ps[1..], s[|ps[0]|..])
  }

  /** `RegexpTokenizer(r'[^.?|,-]+[?!]?').tokenize(s)`, that is
      `re.findall` of the pattern: scanning left to right, a break character
      where no match starts is skipped. */
  function CoarseSplit(s: string): (r: seq<string>)
    decreases |s|
    ensures forall i :: 0 <= i < |r| ==> IsCoarseClause(r[i])
    ensures Tiles(r, s)
  {
    if s == [] then []
    else if IsBreak(s[0]) then CoarseSplit(s[1..])
    else
      var n := MatchLength(s);
      var rest := CoarseSplit(s[n..]);
      var r := [s[..n]] + rest;
      assert r[1..] == rest;
      r
  }

  /** A non-empty text without break characters is a single clause; in
      particular `!` never ends a clause. */
  lemma CoarseSplitUnbroken(s: string)
    requires s != [] && forall i :: 0 <= i < |s| ==> !IsBreak(s[i])
    ensures CoarseSplit(s) == [s]
  {
    RunLengthIs(s, |s|);
    assert MatchLength(s) == |s|;
    assert s[|s|..] == [] && s[..|s|] == s;
    assert CoarseSplit(s) == [s] + CoarseSplit([]);
  }

  /** A text made only of break characters has no clause at all. */
  lemma {:induction false} CoarseSplitAllBreaks(s: string)
    requires forall i :: 0 <= i < |s| ==> IsBreak(s[i])
    ensures CoarseSplit(s) == []
  {
    if s != [] {
      CoarseSplitAllBreaks(s[1..]);
    }
  }

  /** A break where no match starts is skipped: a leading break adds no
      clause and changes none. With `CoarseSplitClause` and
      `CoarseSplitUnbroken` this fixes the split of every text, so each
      clause is the longest match at its place. */
  lemma CoarseSplitBreak(c: char, s: string)
    requires IsBreak(c)
    ensures CoarseSplit([c] + s) == CoarseSplit(s)
  {
    assert ([c] + s)[1..] == s;
  }

  /** The break-free run is determined by its end: the first break. */
  lemma {:induction false} RunLengthIs(s: string, n: nat)
    requires n <= |s|
    requires forall i :: 0 <= i < n ==> !IsBreak(s[i])
    requires n == |s| || IsBreak(s[n])
    ensures RunLength(s) == n
  {
    if n > 0 {
      RunLengthIs(s[1..], n - 1);
    }
  }

  /** One clause followed by a break: a `?` stays on the clause, any other
      break is dropped. */
  lemma {:induction false} CoarseSplitClause(a: string, c: char, b: string)
    requires a != [] && forall i :: 0 <= i < |a| ==> !IsBreak(a[i])
    requires IsBreak(c)
    ensures CoarseSplit(a + [c] + b)
         == if c == '?' then [a + [c]] + CoarseSplit(b) else [a] + CoarseSplit(b)
  {
    var s := a + [c] + b;
    RunLengthIs(s, |a|);
    assert s[..|a|] == a;
    assert s[..|a| + 1] == a + [c];
    assert s[|a| + 1..] == b;
    assert s[|a|..] == [c] + b;
    assert ([c] + b)[1..] == b;
  }

  // ---------------------------------------------------------------------
  // Conjunction split, over the token sequence of one clause

  /** The coordinating conjunctions a long clause is cut in front of. */
  const Conjunctions: set<string> := {"and", "but", "or", "nor", "for", "yet", "so"}

  /** The least index in `[lo, hi)` whose token is a conjunction. */
  function FirstConjunction(words: seq<string>, lo: nat, hi: nat): (r: Option<nat>)
    requires hi <= |words|
    decreases hi - lo
    ensures r.Some? ==> lo <= r.value < hi && words[r.value] in Conjunctions
    ensures r.Some? ==> forall k :: lo <= k < r.value ==> words[k] !in Conjunctions
    ensures r.None? ==> forall k :: lo <= k < hi ==> words[k] !in Conjunctions
  {
    if lo >= hi then None
    else if words[lo] in Conjunctions then Some(lo)
    else FirstConjunction(words, lo + 1, hi)
  }

  /** A clause the conjunction split leaves whole: fewer than ten tokens, or
      no conjunction at any index from 4 up to but excluding `|p| - 4`. */
  predicate Unsplittable(p: seq<string>) {
    |p| < 10 || forall k :: 4 <= k < |p| - 4 ==> p[k] !in Conjunctions
  }

  /** `split_sentence_on_conjunction` on the clause's tokens. The pieces
      flatten back to the tokens; every piece after the first begins with
      the conjunction it was cut at; no piece can be cut further; and once
      the clause is long enough to be cut, every piece keeps at least four
      tokens. Each recursive call is on a strictly shorter sequence. */
  function SplitOnConjunction(words: seq<string>): (r: seq<seq<string>>)
    decreases |words|
    ensures |r| >= 1 && Concat(r) == words
    ensures |words| < 10 ==> r == [words]
    ensures words != [] ==> forall j :: 0 <= j < |r| ==> r[j] != []
    ensures words != [] ==> r[0][0] == words[0]
    ensures forall j :: 0 < j < |r| ==> r[j] != [] && r[j][0] in Conjunctions
    ensures forall j :: 0 <= j < |r| ==> Unsplittable(r[j])
    ensures |words| >= 10 ==> forall j :: 0 <= j < |r| ==> |r[j]| >= 4
  {
    if |words| < 10 then [words]
    else
      match FirstConjunction(words, 4, |words| - 4)
      case None =>
        WholeClause(words);
        [words]
      case Some(i) =>
        var left, right := SplitOnConjunction(words[..i]), SplitOnConjunction(words[i..]);
        CutPieces(words, i, left, right);
        left + right
  }

  /** A clause with no conjunction to cut at, as its own single piece,
      meets `SplitOnConjunction`'s contract. */
  lemma WholeClause(words: seq<string>)
    requires |words| >= 10
    requires forall k :: 4 <= k < |words| - 4 ==> words[k] !in Conjunctions
    ensures Concat([words]) == words && Unsplittable(words)
  {
    assert [words][1..] == [];
  }

  /** The facts about the two halves' pieces that make the whole clause's
      pieces meet `SplitOnConjunction`'s contract. */
  lemma CutPieces(words: seq<string>, i: nat, left: seq<seq<string>>, right: seq<seq<string>>)
    requires |words| >= 10 && 4 <= i < |words| - 4 && words[i] in Conjunctions
    requires |left| >= 1 && Concat(left) == words[..i]
    requires |right| >= 1 && Concat(right) == words[i..]
    requires |words[..i]| < 10 ==> left == [words[..i]]
    requires |words[i..]| < 10 ==> right == [words[i..]]
    requires forall j :: 0 <= j < |left| ==> left[j] != [] && Unsplittable(left[j])
    requires forall j :: 0 <= j < |right| ==> right[j] != [] && Unsplittable(right[j])
    requires left[0][0] == words[0] && right[0][0] == words[i]
    requires forall j :: 0 < j < |left| ==> left[j][0] in Conjunctions
    requires forall j :: 0 < j < |right| ==> right[j][0] in Conjunctions
    requires |words[..i]| >= 10 ==> forall j :: 0 <= j < |left| ==> |left[j]| >= 4
    requires |words[i..]| >= 10 ==> forall j :: 0 <= j < |right| ==> |right[j]| >= 4
    ensures var r := left + right;
      && |r| >= 1 && Concat(r) == words
      && (forall j :: 0 <= j < |r| ==> r[j] != [] && Unsplittable(r[j]) && |r[j]| >= 4)
      && r[0][0] == words[0]
      && (forall j :: 0 < j < |r| ==> r[j][0] in Conjunctions)
  {
    ConcatAppend(left, right);
    assert words[..i] + words[i..] == words;
    HalfPieces(words[..i], left);
    HalfPieces(words[i..], right);
    var r := left + right;
    forall j | 0 <= j < |r|
      ensures r[j] != [] && Unsplittable(r[j]) && |r[j]| >= 4
      ensures j > 0 ==> r[j][0] in Conjunctions
    {
      if j < |left| {
        assert r[j] == left[j];
      } else {
        assert r[j] == right[j - |left|];
      }
    }
  }

  /** Either half of a cut clause has at least four tokens, so each of its
      pieces does too. */
  lemma HalfPieces(half: seq<string>, ps: seq<seq<string>>)
    requires |half| >= 4 && |ps| >= 1
    requires |half| < 10 ==> ps == [half]
    requires |half| >= 10 ==> forall j :: 0 <= j < |ps| ==> |ps[j]| >= 4
    ensures forall j :: 0 <= j < |ps| ==> |ps[j]| >= 4
  {
  }

  /** A clause that cannot be cut comes back whole. */
  lemma SplitUnsplittable(words: seq<string>)
    requires Unsplittable(words)
    ensures SplitOnConjunction(words) == [words]
  {
    if |words| >= 10 {
      assert FirstConjunction(words, 4, |words| - 4).None?;
    }
  }

  /** When a clause is cut, the first cut is at the first conjunction with at
      least four tokens on either side: the first piece is everything before
      it, and the next piece begins with that conjunction. */
  lemma FirstCutAtFirstConjunction(words: seq<string>, i: nat)
    requires |words| >= 10 && 4 <= i < |words| - 4
    requires words[i] in Conjunctions
    requires forall k :: 4 <= k < i ==> words[k] !in Conjunctions
    ensures var r := SplitOnConjunction(words);
      |r| >= 2 && r[0] == words[..i] && r[1][0] == words[i]
  {
    assert FirstConjunction(words, 4, |words| - 4) == Some(i);
    SplitUnsplittable(words[..i]);
    var right := SplitOnConjunction(words[i..]);
    assert right[0][0] == words[i..][0];
  }

  /** A clause with no conjunction in the cuttable range comes back whole,
      whatever its length. */
  lemma NoConjunctionNoCut(words: seq<string>)
    requires forall k :: 4 <= k < |words| - 4 ==> words[k] !in Conjunctions
    ensures SplitOnConjunction(words) == [words]
  {
    SplitUnsplittable(words);
  }

  // ---------------------------------------------------------------------
  // Conjunction split, on the clause text

  /** `split_sentence_on_conjunction(sentence)` where `words` are the
      tokens `word_tokenize` gives for `sentence`: the sentence itself when
      it is not cut, otherwise the stripped space-join of each piece. */
  function ClauseTexts(sentence: string, words: seq<string>): (r: seq<string>)
    ensures |r| == |SplitOnConjunction(words)|
    ensures |r| == 1 <==> r == [sentence]
    ensures Unsplittable(words) ==> r == [sentence]
  {
    var pieces := SplitOnConjunction(words);
    CutIffSplittable(words);
    if |pieces| == 1 then [sentence]
    else seq(|pieces|, j requires 0 <= j < |pieces| => Strip(Join(pieces[j])))
  }

  /** A clause is cut into two or more pieces exactly when it is not
      `Unsplittable`. */
  lemma CutIffSplittable(words: seq<string>)
    ensures |SplitOnConjunction(words)| >= 2 <==> !Unsplittable(words)
    ensures |SplitOnConjunction(words)| == 1 <==> Unsplittable(words)
  {
    if Unsplittable(words) {
      SplitUnsplittable(words);
    } else {
      assert FirstConjunction(words, 4, |words| - 4).Some?;
    }
  }

  /** Tokens that are non-empty and contain no whitespace, as a word
      tokenizer produces them. */
  predicate WellFormedTokens(words: seq<string>) {
    forall k :: 0 <= k < |words| ==> words[k] != [] && NoSpace(words[k])
  }

  /** When the clause is cut, splitting each piece's text on whitespace
      gives back that piece's tokens, so the pieces' words are exactly the
      clause's tokens, in order. */
  lemma ClauseTextsKeepTokens(sentence: string, words: seq<string>)
    requires WellFormedTokens(words)
    requires !Unsplittable(words)
    ensures var r := ClauseTexts(sentence, words);
      var pieces := SplitOnConjunction(words);
      forall j :: 0 <= j < |r| ==> SplitWhitespace(r[j]) == pieces[j]
  {
    var pieces := SplitOnConjunction(words);
    var r := ClauseTexts(sentence, words);
    CutIffSplittable(words);
    forall j | 0 <= j < |r|
      ensures SplitWhitespace(r[j]) == pieces[j]
    {
      var p := pieces[j];
      assert WellFormedTokens(p) by {
        ConcatElements(pieces, j);
      }
      SplitJoinInverse(p);
      JoinStripped(p);
      StripOfStripped(Join(p));
    }
  }

  /** Every token of a piece is a token of the clause. */
  lemma ConcatElements(pieces: seq<seq<string>>, j: nat)
    requires j < |pieces|
    requires WellFormedTokens(Concat(pieces))
    ensures WellFormedTokens(pieces[j])
    decreases j
  {
    if j > 0 {
      assert Concat(pieces) == pieces[0] + Concat(pieces[1..]);
      assert WellFormedTokens(Concat(pieces[1..])) by {
        var c := Concat(pieces[1..]);
        forall k | 0 <= k < |c| ensures c[k] != [] && NoSpace(c[k]) {
          assert c[k] == Concat(pieces)[|pieces[0]| + k];
        }
      }
      ConcatElements(pieces[1..], j - 1);
    } else {
      assert Concat(pieces) == pieces[0] + Concat(pieces[1..]);
      forall k | 0 <= k < |pieces[0]| ensures pieces[0][k] != [] && NoSpace(pieces[0][k]) {
        assert pieces[0][k] == Concat(pieces)[k];
      }
    }
  }

  lemma JoinStripped(p: seq<string>)
    requires |p| >= 1 && WellFormedTokens(p)
    ensures IsStripped(Join(p))
  {
    forall k | 0 <= k < |p| ensures p[k] != [] && IsStripped(p[k]) {
      assert !IsSpace(p[k][0]) && !IsSpace(p[k][|p[k]| - 1]);
    }
    WordCountJoin(p);
  }
}

=== FILE: projects.dfy ===
/** `get_project_names`: the paths and file names of one project, built
    from the project list's location, the source video and the subject.
    Paths follow POSIX `os.path`: `/` is the only separator. */
module Projects {

  /** The five names `get_project_names` returns, in its order. */
  datatype ProjectNames = ProjectNames(
    sourceMpegPath: string,
    outputDir: string,
    mpegFile: string,
    audioFile: string,
    srtFile: string)

  predicate NoSlash(s: string) {
    forall i :: 0 <= i < |s| ==> s[i] != '/'
  }

  predicate AllSlashes(s: string) {
    forall i :: 0 <= i < |s| ==> s[i] == '/'
  }

  /** POSIX `os.path.join(a, b)`: an absolute `b` replaces `a`; otherwise a
      `/` is put between them unless `a` is empty or already ends in one. */
  function PathJoin(a: string, b: string): (r: string)
    ensures |b| <= |r| && r[|r| - |b|..] == b
    ensures b != [] && b[0] == '/' ==> r == b
    ensures (b == [] || b[0] != '/') && a != [] && a[|a| - 1] != '/' ==> r == a + "/" + b
    ensures (b == [] || b[0] != '/') && (a == [] || a[|a| - 1] == '/') ==> r == a + b
  {
    if b != [] && b[0] == '/' then b
    else if a == [] || a[|a| - 1] == '/' then a + b
    else a + "/" + b
  }

  /** The index just past the last `/` of `s`, or 0 when there is none
      (`s.rfind('/') + 1`). */
  function AfterLastSlash(s: string): (k: nat)
    ensures k <= |s|
    ensures k > 0 ==> s[k - 1] == '/'
    ensures NoSlash(s[k..])
  {
    if s == [] then 0
    else if s[|s| - 1] == '/' then |s|
    else
      var k := AfterLastSlash(s[..|s| - 1]);
      assert s[k..] == s[..|s| - 1][k..] + [s[|s| - 1]];
      k
  }

  /** POSIX `os.path.basename(p)`: everything after the last `/`. */
  function BaseName(p: string): (r: string)
    ensures NoSlash(r)
    ensures |r| <= |p| && p[|p| - |r|..] == r
    ensures |r| == |p| || p[|p| - |r| - 1] == '/'
  {
    p[AfterLastSlash(p)..]
  }

  /** `s.rstrip('/')`. */
  function RStripSlashes(s: string): (r: string)
    ensures |r| <= |s| && r == s[..|r|]
    ensures AllSlashes(s[|r|..])
    ensures r == [] || r[|r| - 1] != '/'
  {
    if s != [] && s[|s| - 1] == '/' then
      var r := RStripSlashes(s[..|s| - 1]);
      assert s[|r|..] == s[..|s| - 1][|r|..] + ['/'];
      r
    else s
  }

  /** POSIX `os.path.dirname(p)`: everything up to the last `/`, with the
      trailing slashes dropped unless nothing but slashes is left. Read
      from the other side: a path without a slash has no directory; a path
      with one is its directory, then a run of slashes that is empty only
      when the directory is all slashes (the root), then a slash-free
      name. */
  function DirName(p: string): (r: string)
    ensures |r| <= |p| && r == p[..|r|]
    ensures NoSlash(p) <==> r == []
    ensures r != [] && !AllSlashes(r) ==> r[|r| - 1] != '/' && |r| < |p| && p[|r|] == '/'
    ensures r != [] && AllSlashes(r) ==> NoSlash(p[|r|..])
    ensures forall i, j :: |r| <= i < j < |p| && p[j] == '/' ==> p[i] == '/'
  {
    var k := AfterLastSlash(p);
    var head := p[..k];
    assert k == 0 ==> p[k..] == p;
    assert forall j :: k <= j < |p| ==> p[j] != '/' by {
      forall j | k <= j < |p| ensures p[j] != '/' {
        assert p[j] == p[k..][j - k];
      }
    }
    if head != [] && !AllSlashes(head) then
      var r := RStripSlashes(head);
      assert forall i :: |r| <= i < k ==> p[i] == '/' by {
        forall i | |r| <= i < k ensures p[i] == '/' {
          assert p[i] == head[|r|..][i - |r|];
        }
      }
      r
    else
      head
  }

  /** `s.split("_")[0]`: the text before the first underscore, or all of
      `s` when it has none. */
  function FirstField(s: string): (r: string)
    ensures |r| <= |s| && r == s[..|r|]
    ensures forall i :: 0 <= i < |r| ==> r[i] != '_'
    ensures |r| == |s| || s[|r|] == '_'
  {
    if s == [] || s[0] == '_' then []
    else
      var r := [s[0]] + FirstField(s[1..]);
      assert s[..|r|] == [s[0]] + s[1..][..|r| - 1];
      r
  }

  /** `get_project_names(project_csv_path, source_mpeg_folder,
      source_mpeg_name, subject_name, subject_tag, campaign)`. */
  function GetProjectNames(projectCsvPath: string, sourceMpegFolder: string, sourceMpegName: string,
                           subjectName: string, subjectTag: string, campaign: string): ProjectNames
  {
    var fileDate := FirstField(sourceMpegName);
    var stem := subjectName + "_" + subjectTag;
    ProjectNames(
      PathJoin(sourceMpegFolder, sourceMpegName),
      PathJoin(DirName(projectCsvPath), fileDate + "_" + subjectTag + "_" + subjectName + "_" + campaign),
      stem + ".mp4",
      stem + ".wav",
      stem + ".srt")
  }

  /** Joining a name without slashes onto a directory in the form
      `dirname` gives (empty, all slashes, or not ending in a slash) and
      taking the directory back gives the directory: `dirname` undoes
      `join`. */
  lemma DirNameOfJoin(a: string, b: string)
    requires a == [] || AllSlashes(a) || a[|a| - 1] != '/'
    requires NoSlash(b)
    ensures DirName(PathJoin(a, b)) == a
  {
    if a == [] {
      assert PathJoin(a, b) == b;
    } else if AllSlashes(a) {
      var p := a + b;
      assert PathJoin(a, b) == p;
      assert p[..|a|] == a && p[|a|..] == b;
      AfterLastSlashIs(p, |a|);
    } else {
      var p := a + "/" + b;
      assert PathJoin(a, b) == p;
      var k := |a| + 1;
      assert p[k - 1] == '/';
      assert p[k..] == b;
      AfterLastSlashIs(p, k);
      var head := p[..k];
      assert head == a + "/";
      assert !AllSlashes(head) by {
        assert head[|a| - 1] == a[|a| - 1];
      }
      RStripOneSlash(a);
    }
  }

  /** Joining a name without slashes onto any directory and taking the
      base name gives the name back: `basename` undoes `join`. */
  lemma BaseNameOfJoin(a: string, b: string)
    requires NoSlash(b)
    ensures BaseName(PathJoin(a, b)) == b
  {
    var p := PathJoin(a, b);
    if a == [] {
      assert p == b;
      assert AfterLastSlash(p) == 0;
    } else if a[|a| - 1] == '/' {
      assert p == a + b;
      assert p[|a| - 1] == '/' && p[|a|..] == b;
      AfterLastSlashIs(p, |a|);
    } else {
      assert p == a + "/" + b;
      assert p[|a|] == '/' && p[|a| + 1..] == b;
      AfterLastSlashIs(p, |a| + 1);
    }
  }

  /** What `dirname` returns is a directory `join` accepts back: empty,
      the root, or a path not ending in a slash. */
  lemma DirNameForm(p: string)
    ensures var r := DirName(p); r == [] || AllSlashes(r) || r[|r| - 1] != '/'
  {
  }

  /** The last slash is found where one is followed only by non-slashes. */
  lemma {:induction false} AfterLastSlashIs(s: string, k: nat)
    requires 0 < k <= |s| && s[k - 1] == '/' && NoSlash(s[k..])
    ensures AfterLastSlash(s) == k
    decreases |s|
  {
    if k < |s| {
      assert s[|s| - 1] == s[k..][|s| - 1 - k];
      var t := s[..|s| - 1];
      assert t[k..] == s[k..|s| - 1];
      assert NoSlash(t[k..]) by {
        forall i | 0 <= i < |t[k..]| ensures t[k..][i] != '/' {
          assert t[k..][i] == s[k..][i];
        }
      }
      AfterLastSlashIs(t, k);
    }
  }

  lemma RStripOneSlash(a: string)
    requires a != [] && a[|a| - 1] != '/'
    ensures RStripSlashes(a + "/") == a
  {
    var s := a + "/";
    assert s[..|s| - 1] == a;
  }

  /** The project's directory sits next to the project list and is named
      `{file_date}_{subject_tag}_{subject_name}_{campaign}`, where
      `file_date` is the video name up to its first underscore; the source
      video is found in its folder under its own name; the three media
      files share the stem `{subject_name}_{subject_tag}` and differ only
      in their extension. */
  lemma ProjectLayout(projectCsvPath: string, sourceMpegFolder: string, sourceMpegName: string,
                      subjectName: string, subjectTag: string, campaign: string)
    requires NoSlash(sourceMpegName) && NoSlash(subjectName) && NoSlash(subjectTag) && NoSlash(campaign)
    ensures var n := GetProjectNames(projectCsvPath, sourceMpegFolder, sourceMpegName, subjectName, subjectTag, campaign);
      && DirName(n.outputDir) == DirName(projectCsvPath)
      && BaseName(n.outputDir) == FirstField(sourceMpegName) + "_" + subjectTag + "_" + subjectName + "_" + campaign
      && BaseName(n.sourceMpegPath) == sourceMpegName
      && n.mpegFile[..|n.mpegFile| - 4] == subjectName + "_" + subjectTag
      && n.mpegFile[..|n.mpegFile| - 4] == n.audioFile[..|n.audioFile| - 4] == n.srtFile[..|n.srtFile| - 4]
      && n.mpegFile[|n.mpegFile| - 4..] == ".mp4"
      && n.audioFile[|n.audioFile| - 4..] == ".wav"
      && n.srtFile[|n.srtFile| - 4..] == ".srt"
  {
    var name := FirstField(sourceMpegName) + "_" + subjectTag + "_" + subjectName + "_" + campaign;
    ProjectDirNoSlash(sourceMpegName, subjectName, subjectTag, campaign);
    JoinedDir(projectCsvPath, name);
    BaseNameOfJoin(sourceMpegFolder, sourceMpegName);
    MediaStem(subjectName + "_" + subjectTag);
  }

  /** A slash-free name joined onto the project list's directory is a
      directory next to the list with that name. */
  lemma JoinedDir(projectCsvPath: string, name: string)
    requires NoSlash(name)
    ensures DirName(PathJoin(DirName(projectCsvPath), name)) == DirName(projectCsvPath)
    ensures BaseName(PathJoin(DirName(projectCsvPath), name)) == name
  {
    DirNameForm(projectCsvPath);
    DirNameOfJoin(DirName(projectCsvPath), name);
    BaseNameOfJoin(DirName(projectCsvPath), name);
  }

  /** The three media names are one stem with three extensions. */
  lemma MediaStem(stem: string)
    ensures (stem + ".mp4")[..|stem|] == stem && (stem + ".mp4")[|stem|..] == ".mp4"
    ensures (stem + ".wav")[..|stem|] == stem && (stem + ".wav")[|stem|..] == ".wav"
    ensures (stem + ".srt")[..|stem|] == stem && (stem + ".srt")[|stem|..] == ".srt"
  {
  }

  /** The project directory's name has no slash when its parts have none. */
  lemma ProjectDirNoSlash(sourceMpegName: string, subjectName: string, subjectTag: string, campaign: string)
    requires NoSlash(sourceMpegName) && NoSlash(subjectName) && NoSlash(subjectTag) && NoSlash(campaign)
    ensures NoSlash(FirstField(sourceMpegName) + "_" + subjectTag + "_" + subjectName + "_" + campaign)
  {
    var fileDate := FirstField(sourceMpegName);
    assert NoSlash(fileDate) by {
      forall i | 0 <= i < |fileDate| ensures fileDate[i] != '/' {
        assert fileDate[i] == sourceMpegName[i];
      }
    }
    NoSlashAppend(fileDate, "_");
    NoSlashAppend(fileDate + "_", subjectTag);
    NoSlashAppend(fileDate + "_" + subjectTag, "_");
    NoSlashAppend(fileDate + "_" + subjectTag + "_", subjectName);
    NoSlashAppend(fileDate + "_" + subjectTag + "_" + subjectName, "_");
    NoSlashAppend(fileDate + "_" + subjectTag + "_" + subjectName + "_", campaign);
  }

  lemma NoSlashAppend(a: string, b: string)
    requires NoSlash(a) && NoSlash(b)
    ensures NoSlash(a + b)
  {
    forall i | 0 <= i < |a + b| ensures (a + b)[i] != '/' {
      if i >= |a| {
        assert (a + b)[i] == b[i - |a|];
      }
    }
  }
}

=== FILE: results.dfy ===
/** Failure-compatible wrappers used by the model: an optional value, and a
    result that carries either a value or the error the original program
    raises at that point. */
module Results {

  /** A value that may be missing. */
  datatype Option<+T> = None | Some(value: T)

  /** Either a computed value or the error that aborts the computation. */
  datatype Result<+T, +E> = Ok(value: T) | Err(error: E) {

    predicate IsFailure() {
      Err?
    }

    function PropagateFailure<U>(): Result<U, E>
      requires Err?
    {
      Err(error)
    }

    function Extract(): T
      requires Ok?
    {
      value
    }
  }
}

=== FILE: strings.dfy ===
/** Character and string primitives shared by the caption model: Python's
    whitespace class, `strip`, `' '.join`, `re.split(r'\s+', s)`, and the
    decimal conversions behind `int(...)` parsing and `{n:0w}` formatting. */
module Strings {

  /** The characters for which Python's `str.isspace()` holds; the `\s`
      class of a `str` regular expression is the same set. */
  predicate IsSpace(c: char) {
    || c == ' '
    || ('\t' <= c <= '\r')
    || ('\U{1C}' <= c <= '\U{1F}')
    || c == '\U{85}' || c == '\U{A0}' || c == '\U{1680}'
    || ('\U{2000}' <= c <= '\U{200A}')
    || c == '\U{2028}' || c == '\U{2029}' || c == '\U{202F}'
    || c == '\U{205F}' || c == '\U{3000}'
  }

  predicate NoSpace(s: string) {
    forall i :: 0 <= i < |s| ==> !IsSpace(s[i])
  }

  /** Neither the first nor the last character is whitespace. */
  predicate IsStripped(s: string) {
    s == [] || (!IsSpace(s[0]) && !IsSpace(s[|s| - 1]))
  }

  /** The number of whitespace characters that start `s`. */
  function LeadingSpaces(s: string): (k: nat)
    ensures k <= |s|
    ensures forall i :: 0 <= i < k ==> IsSpace(s[i])
    ensures k == |s| || !IsSpace(s[k])
  {
    if s != [] && IsSpace(s[0]) then 1 + LeadingSpaces(s[1..]) else 0
  }

  /** The number of whitespace characters that end `s`. */
  function TrailingSpaces(s: string): (k: nat)
    ensures k <= |s|
    ensures forall i :: |s| - k <= i < |s| ==> IsSpace(s[i])
    ensures k == |s| || !IsSpace(s[|s| - k - 1])
  {
    if s != [] && IsSpace(s[|s| - 1]) then 1 + TrailingSpaces(s[..|s| - 1]) else 0
  }

  /** Python `s.lstrip()`. */
  function LStrip(s: string): string
  {
    s[LeadingSpaces(s)..]
  }

  /** Python `s.rstrip()`. */
  function RStrip(s: string): string
  {
    s[..|s| - TrailingSpaces(s)]
  }

  /** Python `s.strip()`: the longest inner slice of `s` that neither starts
      nor ends with whitespace; everything cut away is whitespace. */
  function Strip(s: string): (r: string)
    ensures IsStripped(r)
    ensures var k := LeadingSpaces(s);
      && k + |r| <= |s|
      && r == s[k..k + |r|]
      && (forall i :: 0 <= i < k ==> IsSpace(s[i]))
      && (forall i :: k + |r| <= i < |s| ==> IsSpace(s[i]))
  {
    var t := LStrip(s);
    var r := RStrip(t);
    assert r == s[LeadingSpaces(s)..LeadingSpaces(s) + |r|];
    r
  }

  lemma StripOfStripped(s: string)
    requires IsStripped(s)
    ensures Strip(s) == s
  {
  }

  lemma ConcatCons<T>(x: seq<T>, rest: seq<seq<T>>)
    ensures Concat([x] + rest) == x + Concat(rest)
  {
    assert ([x] + rest)[1..] == rest;
  }

  lemma AppendAssoc<T>(a: seq<T>, b: seq<T>, c: seq<T>)
    ensures a + b + c == a + (b + c)
  {
  }

  /** Python `' '.join(xs)`. */
  function Join(xs: seq<string>): string
  {
    if |xs| == 0 then ""
    else if |xs| == 1 then xs[0]
    else xs[0] + " " + Join(xs[1..])
  }

  /** Flattening of a sequence of sequences, in order. */
  function Concat<T>(xss: seq<seq<T>>): seq<T>
  {
    if |xss| == 0 then [] else xss[0] + Concat(xss[1..])
  }

  lemma {:induction false} ConcatAppend<T>(a: seq<seq<T>>, b: seq<seq<T>>)
    ensures Concat(a + b) == Concat(a) + Concat(b)
  {
    if |a| == 0 {
      assert a + b == b;
    } else {
      assert (a + b)[1..] == a[1..] + b;
      ConcatAppend(a[1..], b);
    }
  }

  /** The characters of `s` that are not whitespace, in order. */
  function RemoveSpaces(s: string): string
  {
    if s == [] then []
    else if IsSpace(s[0]) then RemoveSpaces(s[1..])
    else [s[0]] + RemoveSpaces(s[1..])
  }

  lemma {:induction false} RemoveSpacesLStrip(s: string)
    ensures RemoveSpaces(LStrip(s)) == RemoveSpaces(s)
  {
    if s != [] && IsSpace(s[0]) {
      RemoveSpacesLStrip(s[1..]);
    }
  }

  /** Python `re.split(r'\s+', s)`: the fields between maximal runs of
      whitespace. A leading run yields an empty first field and a trailing
      run an empty last field. */
  function SplitWhitespace(s: string): (r: seq<string>)
    decreases |s|
    ensures |r| >= 1
    ensures forall i :: 0 <= i < |r| ==> NoSpace(r[i])
    ensures forall i :: 0 < i < |r| - 1 ==> r[i] != []
    ensures s != [] && !IsSpace(s[0]) ==> r[0] != []
  {
    if s == [] then [""]
    else if IsSpace(s[0]) then [""] + SplitWhitespace(LStrip(s))
    else
      var f := SplitWhitespace(s[1..]);
      [[s[0]] + f[0]] + f[1..]
  }

  /** The fields hold exactly the non-whitespace characters, in order. */
  lemma {:induction false} SplitWhitespaceKeepsText(s: string)
    ensures Concat(SplitWhitespace(s)) == RemoveSpaces(s)
    decreases |s|
  {
    if s == [] {
    } else if IsSpace(s[0]) {
      RemoveSpacesLStrip(s);
      SplitWhitespaceKeepsText(LStrip(s));
    } else {
      SplitWhitespaceKeepsText(s[1..]);
      SplitNonSpaceStart(s);
      ConcatMergeHead(s[0], SplitWhitespace(s[1..]));
    }
  }

  lemma ConcatMergeHead<T>(c: T, f: seq<seq<T>>)
    requires |f| >= 1
    ensures Concat([[c] + f[0]] + f[1..]) == [c] + Concat(f)
  {
    var g := [[c] + f[0]] + f[1..];
    assert g[1..] == f[1..];
    assert Concat(f) == f[0] + Concat(f[1..]);
    assert Concat(g) == ([c] + f[0]) + Concat(f[1..]);
  }

  /** The number of fields Python's `len(re.split(r'\s+', s))` reports. */
  function WordCount(s: string): (n: nat)
    ensures n >= 1
  {
    |SplitWhitespace(s)|
  }

  /** The number of maximal runs of whitespace in `s`, counted at the
      character that ends each run. */
  function SpaceRuns(s: string): nat
  {
    if s == [] then 0
    else (if IsSpace(s[0]) && (|s| == 1 || !IsSpace(s[1])) then 1 else 0) + SpaceRuns(s[1..])
  }

  lemma {:induction false} SpaceRunsLeading(s: string)
    requires s != [] && IsSpace(s[0])
    ensures SpaceRuns(s) == 1 + SpaceRuns(LStrip(s))
    decreases |s|
  {
    if |s| > 1 && IsSpace(s[1]) {
      SpaceRunsLeading(s[1..]);
    }
  }

  /** The word count is one more than the number of whitespace runs. */
  lemma {:induction false} WordCountIsRunsPlusOne(s: string)
    ensures WordCount(s) == 1 + SpaceRuns(s)
    decreases |s|
  {
    if s == [] {
    } else if IsSpace(s[0]) {
      SpaceRunsLeading(s);
      WordCountIsRunsPlusOne(LStrip(s));
    } else {
      WordCountIsRunsPlusOne(s[1..]);
    }
  }

  lemma NoSpaceLStrip(s: string)
    requires s == [] || !IsSpace(s[0])
    ensures LStrip(s) == s
  {
  }

  lemma {:induction false} LStripAppend(a: string, b: string)
    requires LStrip(a) != []
    ensures LStrip(a + b) == LStrip(a) + b
    decreases |a|
  {
    if IsSpace(a[0]) {
      assert (a + b)[1..] == a[1..] + b;
      LStripAppend(a[1..], b);
    } else {
      assert (a + b)[0] == a[0];
    }
  }

  lemma LStripBeforeSpace(a: string, b: string)
    requires LStrip(a) != []
    ensures LStrip(a + " " + b) == LStrip(a) + " " + b
  {
    LStripAppend(a, " " + b);
    assert a + " " + b == a + (" " + b);
    assert LStrip(a) + " " + b == LStrip(a) + (" " + b);
  }

  lemma SplitSpaceStart(s: string)
    requires s != [] && IsSpace(s[0])
    ensures SplitWhitespace(s) == [""] + SplitWhitespace(LStrip(s))
  {
  }

  lemma SplitNonSpaceStart(s: string)
    requires s != [] && !IsSpace(s[0])
    ensures var f := SplitWhitespace(s[1..]);
      SplitWhitespace(s) == [[s[0]] + f[0]] + f[1..]
  {
  }

  /** Splitting on whitespace around one inserted blank concatenates the two
      sides' fields, provided the blank does not merge with whitespace that
      already ends `a` or starts `b`. */
  lemma {:induction false} SplitAroundSpace(a: string, b: string)
    requires a == [] || !IsSpace(a[|a| - 1])
    requires b == [] || !IsSpace(b[0])
    ensures SplitWhitespace(a + " " + b) == SplitWhitespace(a) + SplitWhitespace(b)
    decreases |a|, 1
  {
    if a == [] {
      SplitAroundEmpty(b);
    } else if IsSpace(a[0]) {
      SplitAroundSpaceLeading(a, b);
    } else {
      SplitAroundSpaceWord(a, b);
    }
  }

  lemma {:induction false} SplitAroundSpaceWord(a: string, b: string)
    requires a != [] && !IsSpace(a[0]) && !IsSpace(a[|a| - 1])
    requires b == [] || !IsSpace(b[0])
    ensures SplitWhitespace(a + " " + b) == SplitWhitespace(a) + SplitWhitespace(b)
    decreases |a|, 0
  {
    var s := a + " " + b;
    var a1 := a[1..];
    assert a1 == [] || a1[|a1| - 1] == a[|a| - 1];
    var f, g, h := SplitWhitespace(a[1..] + " " + b), SplitWhitespace(a[1..]), SplitWhitespace(b);
    assert SplitWhitespace(s) == [[a[0]] + f[0]] + f[1..] by {
      assert s[0] == a[0] && s[1..] == a[1..] + " " + b;
      SplitNonSpaceStart(s);
    }
    assert SplitWhitespace(a) == [[a[0]] + g[0]] + g[1..] by {
      SplitNonSpaceStart(a);
    }
    SplitAroundSpace(a[1..], b);
    Regroup([a[0]], f, g, h);
  }

  lemma Regroup<T>(x: seq<T>, f: seq<seq<T>>, g: seq<seq<T>>, h: seq<seq<T>>)
    requires f == g + h && |g| >= 1
    ensures [x + f[0]] + f[1..] == ([x + g[0]] + g[1..]) + h
  {
    assert f[0] == g[0];
    assert f[1..] == g[1..] + h;
  }

  lemma SplitAroundEmpty(b: string)
    requires b == [] || !IsSpace(b[0])
    ensures SplitWhitespace([] + " " + b) == SplitWhitespace([]) + SplitWhitespace(b)
  {
    var s := [] + " " + b;
    assert s[1..] == b;
    NoSpaceLStrip(b);
    assert LStrip(s) == b;
    SplitSpaceStart(s);
  }

  lemma {:induction false} SplitAroundSpaceLeading(a: string, b: string)
    requires a != [] && IsSpace(a[0]) && !IsSpace(a[|a| - 1])
    requires b == [] || !IsSpace(b[0])
    ensures SplitWhitespace(a + " " + b) == SplitWhitespace(a) + SplitWhitespace(b)
    decreases |a|, 0
  {
    var s := a + " " + b;
    var a' := LStrip(a);
    assert a' != [] by {
      assert forall i :: 0 <= i < |a| - |LStrip(a)| ==> IsSpace(a[i]);
    }
    assert a'[|a'| - 1] == a[|a| - 1];
    LStripBeforeSpace(a, b);
    var g, h := SplitWhitespace(a'), SplitWhitespace(b);
    assert SplitWhitespace(a' + " " + b) == g + h by {
      SplitAroundSpace(a', b);
    }
    assert SplitWhitespace(s) == [""] + (g + h) by {
      SplitSpaceStart(s);
    }
    assert SplitWhitespace(a) == [""] + g by {
      SplitSpaceStart(a);
    }
    ConsAssoc("", g, h);
  }

  lemma ConsAssoc<T>(x: T, g: seq<T>, h: seq<T>)
    ensures [x] + (g + h) == ([x] + g) + h
  {
  }

  lemma {:induction false} SplitNoSpace(x: string)
    requires NoSpace(x)
    ensures SplitWhitespace(x) == [x]
  {
    if x != [] {
      SplitNoSpace(x[1..]);
      SplitNonSpaceStart(x);
      assert [x[0]] + x[1..] == x;
    }
  }

  /** Joining non-empty stripped strings with single blanks adds up their
      word counts: no blank merges with another whitespace run. */
  lemma {:induction false} WordCountJoin(xs: seq<string>)
    requires |xs| >= 1
    requires forall i :: 0 <= i < |xs| ==> xs[i] != [] && IsStripped(xs[i])
    ensures WordCount(Join(xs)) == SumWordCounts(xs)
    ensures Join(xs) != [] && IsStripped(Join(xs))
  {
    if |xs| > 1 {
      WordCountJoin(xs[1..]);
      SplitAroundSpace(xs[0], Join(xs[1..]));
    }
  }

  /** `re.split(r'\s+', ...)` undoes `' '.join(...)` on non-empty words that
      contain no whitespace. */
  lemma {:induction false} SplitJoinInverse(xs: seq<string>)
    requires |xs| >= 1
    requires forall i :: 0 <= i < |xs| ==> xs[i] != [] && NoSpace(xs[i])
    ensures SplitWhitespace(Join(xs)) == xs
  {
    if |xs| == 1 {
      SplitNoSpace(xs[0]);
    } else {
      SplitJoinInverse(xs[1..]);
      SplitNoSpace(xs[0]);
      assert Join(xs) == xs[0] + " " + Join(xs[1..]);
      assert Join(xs[1..])[0] == xs[1][0] by {
        JoinStartsWithFirst(xs[1..]);
      }
      SplitAroundSpace(xs[0], Join(xs[1..]));
      assert [xs[0]] + xs[1..] == xs;
    }
  }

  lemma JoinStartsWithFirst(xs: seq<string>)
    requires |xs| >= 1 && xs[0] != []
    ensures Join(xs) != [] && Join(xs)[0] == xs[0][0]
  {
  }

  function SumWordCounts(xs: seq<string>): nat
  {
    if |xs| == 0 then 0 else WordCount(xs[0]) + SumWordCounts(xs[1..])
  }

  // ---------------------------------------------------------------------
  // Decimal digits

  predicate IsDigit(c: char) {
    '0' <= c <= '9'
  }

  /** A (possibly empty) string of ASCII decimal digits. */
  predicate IsDigits(s: string) {
    forall i :: 0 <= i < |s| ==> IsDigit(s[i])
  }

  function DigitValue(c: char): nat
    requires IsDigit(c)
  {
    (c - '0') as nat
  }

  function DigitChar(d: nat): (c: char)
    requires d < 10
    ensures IsDigit(c) && DigitValue(c) == d
  {
    '0' + d as char
  }

  /** The value of a decimal numeral, most significant digit first. */
  function DigitsValue(s: string): nat
    requires IsDigits(s)
  {
    if s == [] then 0 else 10 * DigitsValue(s[..|s| - 1]) + DigitValue(s[|s| - 1])
  }

  /** Python `str(n)` for a natural number: the shortest numeral of `n`. */
  function NatToString(n: nat): (r: string)
    ensures |r| >= 1 && IsDigits(r)
    ensures DigitsValue(r) == n
    ensures |r| > 1 ==> r[0] != '0'
    ensures n < 10 ==> |r| == 1
    ensures n < 100 ==> |r| <= 2
    ensures n < 1000 ==> |r| <= 3
  {
    if n < 10 then [DigitChar(n)]
    else
      var r := NatToString(n / 10) + [DigitChar(n % 10)];
      assert r[..|r| - 1] == NatToString(n / 10);
      r
  }

  lemma {:induction false} LeadingZero(s: string)
    requires IsDigits(s)
    ensures IsDigits(['0'] + s) && DigitsValue(['0'] + s) == DigitsValue(s)
  {
    if s != [] {
      var t := ['0'] + s;
      assert t[..|t| - 1] == ['0'] + s[..|s| - 1];
      LeadingZero(s[..|s| - 1]);
    }
  }

  /** A numeral of value zero is all zeros. */
  lemma {:induction false} ZeroNumeral(s: string)
    requires IsDigits(s) && DigitsValue(s) == 0
    ensures forall i :: 0 <= i < |s| ==> s[i] == '0'
  {
    if s != [] {
      ZeroNumeral(s[..|s| - 1]);
      assert forall i :: 0 <= i < |s| - 1 ==> s[..|s| - 1][i] == s[i];
    }
  }

  /** Left-pads a numeral with zeros to at least `w` characters. */
  function ZeroPad(s: string, w: nat): (r: string)
    requires IsDigits(s)
    decreases w - |s|
    ensures IsDigits(r) && DigitsValue(r) == DigitsValue(s)
    ensures |r| == if |s| >= w then |s| else w
  {
    if |s| >= w then s
    else
      LeadingZero(s);
      ZeroPad(['0'] + s, w)
  }

  /** Python's `f"{n:0w}"` for an integer: zero-padded to width `w`, the
      sign counting towards the width. */
  function FormatInt(n: int, w: nat): string
  {
    if n >= 0 then ZeroPad(NatToString(n), w)
    else "-" + ZeroPad(NatToString(-n), if w == 0 then 0 else w - 1)
  }

  /** A formatted integer is its numeral, zero-padded: a non-negative one
      reads back as its value and is exactly `w` long when its numeral
      fits; a negative one is a minus sign before the padded numeral of its
      magnitude. */
  lemma FormatIntValue(n: int, w: nat)
    ensures var r := FormatInt(n, w);
      && (n >= 0 ==> IsDigits(r) && DigitsValue(r) == n)
      && (n >= 0 ==> |r| == if |NatToString(n)| >= w then |NatToString(n)| else w)
      && (n < 0 ==> r != [] && r[0] == '-')
      && (n < 0 ==> IsDigits(r[1..]) && DigitsValue(r[1..]) == -n)
  {
    if n < 0 {
      var p := ZeroPad(NatToString(-n), if w == 0 then 0 else w - 1);
      assert FormatInt(n, w)[1..] == p;
    }
  }
}

=== FILE: timestamps.dfy ===
/** SubRip timestamps `HH:MM:SS,mmm`: reading one back into seconds
    (`convert_srt_time_to_seconds`) and the splitter's own formatter
    (`convert_seconds_to_srt_time`), which keeps only whole seconds.
    Seconds are exact reals; floating-point rounding is not modelled. */
module Timestamps {
  import opened Strings

  /** The four fields of a timestamp. `hours` is unbounded and may be
      negative; the formatters below keep the other fields in range. */
  datatype Clock = Clock(hours: int, minutes: int, seconds: int, millis: int)

  /** The number of seconds the fields denote. */
  function ClockValue(c: Clock): real
  {
    (c.hours * 3600 + c.minutes * 60 + c.seconds) as real + c.millis as real / 1000.0
  }

  /** `f"{h:02}:{m:02}:{s:02},{ms:03}"`. */
  function ClockText(c: Clock): string
  {
    FormatInt(c.hours, 2) + ":" + FormatInt(c.minutes, 2) + ":" + FormatInt(c.seconds, 2)
      + "," + FormatInt(c.millis, 3)
  }

  predicate IsFieldSep(c: char) {
    c == ':' || c == ','
  }

  predicate NoFieldSep(s: string) {
    forall i :: 0 <= i < |s| ==> !IsFieldSep(s[i])
  }

  /** Python `re.split('[:,]', s)`: the pieces between single `:` or `,`
      characters, empty pieces included. */
  function SplitFields(s: string): (r: seq<string>)
    ensures |r| >= 1
    ensures forall i :: 0 <= i < |r| ==> NoFieldSep(r[i])
  {
    if s == [] then [""]
    else if IsFieldSep(s[0]) then [""] + SplitFields(s[1..])
    else
      var f := SplitFields(s[1..]);
      [[s[0]] + f[0]] + f[1..]
  }

  /** A string without separators is a single field. */
  lemma {:induction false} SplitFieldsNoSep(s: string)
    requires NoFieldSep(s)
    ensures SplitFields(s) == [s]
  {
    if s != [] {
      SplitFieldsNoSep(s[1..]);
      assert [s[0]] + s[1..] == s;
    }
  }

  /** A separator-free prefix followed by a separator becomes a field of its
      own, and splitting carries on after the separator. */
  lemma {:induction false} SplitFieldsAfter(a: string, c: char, b: string)
    requires NoFieldSep(a) && IsFieldSep(c)
    ensures SplitFields(a + [c] + b) == [a] + SplitFields(b)
  {
    var s := a + [c] + b;
    if a == [] {
      assert IsFieldSep(s[0]);
      assert s == [c] + b && s[1..] == b;
    } else {
      assert s[0] == a[0] && s[1..] == a[1..] + [c] + b;
      SplitFieldsAfter(a[1..], c, b);
      var f := SplitFields(s[1..]);
      assert f == [a[1..]] + SplitFields(b);
      assert [a[0]] + a[1..] == a;
    }
  }

  /** What `convert_srt_time_to_seconds` accepts here: exactly four fields,
      each a non-empty run of decimal digits. */
  predicate IsTimeFields(s: string) {
    var f := SplitFields(s);
    && |f| == 4
    && f[0] != [] && IsDigits(f[0]) && f[1] != [] && IsDigits(f[1])
    && f[2] != [] && IsDigits(f[2]) && f[3] != [] && IsDigits(f[3])
  }

  /** `convert_srt_time_to_seconds`: hours·3600 + minutes·60 + seconds +
      milliseconds/1000, reading the fields between `:` and `,`. */
  function ParseTime(s: string): real
    requires IsTimeFields(s)
  {
    var f := SplitFields(s);
    ClockValue(Clock(DigitsValue(f[0]), DigitsValue(f[1]), DigitsValue(f[2]), DigitsValue(f[3])))
  }

  /** The timestamp shape the block pattern captures:
      `\d{2}:\d{2}:\d{2},\d{3}` with ASCII digits. */
  predicate IsTimeShape(t: string) {
    && |t| == 12
    && IsDigits(t[0..2]) && t[2] == ':'
    && IsDigits(t[3..5]) && t[5] == ':'
    && IsDigits(t[6..8]) && t[8] == ','
    && IsDigits(t[9..12])
  }

  lemma DigitsNoSep(s: string)
    requires IsDigits(s)
    ensures NoFieldSep(s)
  {
  }

  /** Splitting a string laid out as `a:b:c,d` yields its four pieces. */
  lemma SplitFourFields(a: string, b: string, c: string, d: string)
    requires IsDigits(a) && IsDigits(b) && IsDigits(c) && IsDigits(d)
    ensures SplitFields(a + ":" + b + ":" + c + "," + d) == [a, b, c, d]
  {
    DigitsNoSep(a);
    DigitsNoSep(b);
    DigitsNoSep(c);
    DigitsNoSep(d);
    var tail := b + ":" + c + "," + d;
    SplitThreeFields(b, c, d);
    assert a + ":" + b + ":" + c + "," + d == a + [':'] + tail;
    SplitFieldsAfter(a, ':', tail);
  }

  lemma SplitThreeFields(b: string, c: string, d: string)
    requires NoFieldSep(b) && NoFieldSep(c) && NoFieldSep(d)
    ensures SplitFields(b + ":" + c + "," + d) == [b, c, d]
  {
    SplitTwoFields(c, d);
    assert b + ":" + c + "," + d == b + [':'] + (c + "," + d);
    SplitFieldsAfter(b, ':', c + "," + d);
  }

  lemma SplitTwoFields(c: string, d: string)
    requires NoFieldSep(c) && NoFieldSep(d)
    ensures SplitFields(c + "," + d) == [c, d]
  {
    SplitFieldsNoSep(d);
    assert c + "," + d == c + [','] + d;
    SplitFieldsAfter(c, ',', d);
  }

  /** A timestamp of the captured shape parses to the value of its four
      digit groups. */
  lemma ParseShape(t: string)
    requires IsTimeShape(t)
    ensures IsTimeFields(t)
    ensures ParseTime(t) == ClockValue(Clock(
      DigitsValue(t[0..2]), DigitsValue(t[3..5]), DigitsValue(t[6..8]), DigitsValue(t[9..12])))
    ensures 0.0 <= ParseTime(t)
  {
    assert t == t[0..2] + ":" + t[3..5] + ":" + t[6..8] + "," + t[9..12];
    SplitFourFields(t[0..2], t[3..5], t[6..8], t[9..12]);
  }

  /** Four non-empty digit groups laid out as `a:b:c,d` parse to the value
      of the groups. */
  lemma ParseFourFields(a: string, b: string, c: string, d: string)
    requires a != [] && b != [] && c != [] && d != []
    requires IsDigits(a) && IsDigits(b) && IsDigits(c) && IsDigits(d)
    ensures IsTimeFields(a + ":" + b + ":" + c + "," + d)
    ensures ParseTime(a + ":" + b + ":" + c + "," + d)
         == ClockValue(Clock(DigitsValue(a), DigitsValue(b), DigitsValue(c), DigitsValue(d)))
  {
    var t := a + ":" + b + ":" + c + "," + d;
    SplitFourFields(a, b, c, d);
  }

  /** Rendering a clock whose fields are all non-negative and reading it back
      returns its value. */
  lemma ParseClockText(c: Clock)
    requires c.hours >= 0 && c.minutes >= 0 && c.seconds >= 0 && c.millis >= 0
    ensures IsTimeFields(ClockText(c))
    ensures ParseTime(ClockText(c)) == ClockValue(c)
    ensures SplitFields(ClockText(c))[3] == FormatInt(c.millis, 3)
  {
    var h, m, s, ms := FormatInt(c.hours, 2), FormatInt(c.minutes, 2), FormatInt(c.seconds, 2), FormatInt(c.millis, 3);
    FormatIntValue(c.hours, 2);
    FormatIntValue(c.minutes, 2);
    FormatIntValue(c.seconds, 2);
    FormatIntValue(c.millis, 3);
    assert h != [] && m != [] && s != [] && ms != [];
    ParseFourFields(h, m, s, ms);
    SplitFourFields(h, m, s, ms);
    assert Clock(DigitsValue(h), DigitsValue(m), DigitsValue(s), DigitsValue(ms)) == c;
  }

  /** A clock with hours below 100 and the other fields in range renders
      to the captured shape. */
  lemma ClockTextShape(c: Clock)
    requires 0 <= c.hours < 100 && 0 <= c.minutes < 60 && 0 <= c.seconds < 60
    requires 0 <= c.millis < 1000
    ensures IsTimeShape(ClockText(c))
  {
    var h, m, s, ms := FormatInt(c.hours, 2), FormatInt(c.minutes, 2), FormatInt(c.seconds, 2), FormatInt(c.millis, 3);
    FormatIntValue(c.hours, 2);
    FormatIntValue(c.minutes, 2);
    FormatIntValue(c.seconds, 2);
    FormatIntValue(c.millis, 3);
    assert |h| == 2 && |m| == 2 && |s| == 2 && |ms| == 3;
    TimeShapeOf(h, m, s, ms);
  }

  lemma TimeShapeOf(h: string, m: string, s: string, ms: string)
    requires |h| == 2 && |m| == 2 && |s| == 2 && |ms| == 3
    requires IsDigits(h) && IsDigits(m) && IsDigits(s) && IsDigits(ms)
    ensures IsTimeShape(h + ":" + m + ":" + s + "," + ms)
  {
    var t := h + ":" + m + ":" + s + "," + ms;
    assert t[0..2] == h;
    assert t[3..5] == m;
    assert t[6..8] == s;
    assert t[9..12] == ms;
  }

  /** Python's `int(x)`: truncation towards zero. */
  function Trunc(x: real): (n: int)
    ensures x >= 0.0 ==> n == x.Floor && n as real <= x < n as real + 1.0
    ensures x < 0.0 ==> n as real - 1.0 < x <= n as real && n <= 0
  {
    if x >= 0.0 then x.Floor else -((-x).Floor)
  }

  /** The fields `convert_seconds_to_srt_time` prints: hours `x // 3600`,
      minutes `(x % 3600) // 60`, seconds `int(x) % 60`, and milliseconds
      always 0, because the seconds field is an integer before it is given
      the `06.3f` format. For a non-negative time it reads back as the whole
      seconds of `x`. */
  function SplitterClock(x: real): (c: Clock)
    ensures c.hours == (x / 3600.0).Floor
    ensures 0 <= c.minutes < 60 && 0 <= c.seconds < 60 && c.millis == 0
    ensures x >= 0.0 ==> ClockValue(c) == x.Floor as real
  {
    var hours := (x / 3600.0).Floor;
    var minutes := ((x - 3600.0 * hours as real) / 60.0).Floor;
    var seconds := Trunc(x) % 60;
    var c := Clock(hours, minutes, seconds, 0);
    if x >= 0.0 then
      WholeSeconds(x, hours, minutes);
      c
    else c
  }

  /** For `x >= 0`, hours and minutes taken by floor division of `x` and the
      seconds taken from `floor(x) % 60` add back up to `floor(x)`. */
  lemma WholeSeconds(x: real, hours: int, minutes: int)
    requires x >= 0.0
    requires hours == (x / 3600.0).Floor
    requires minutes == ((x - 3600.0 * hours as real) / 60.0).Floor
    ensures hours * 3600 + minutes * 60 + x.Floor % 60 == x.Floor
  {
    var f := x.Floor;
    assert 3600.0 * hours as real <= x < 3600.0 * hours as real + 3600.0;
    assert 60.0 * minutes as real <= x - 3600.0 * hours as real < 60.0 * minutes as real + 60.0;
    var base := hours * 3600 + minutes * 60;
    assert base as real <= x < base as real + 60.0;
    assert base <= f < base + 60;
    var r := f - base;
    assert f == 60 * (hours * 60 + minutes) + r && 0 <= r < 60;
    ModOfDecomposition(f, hours * 60 + minutes, r);
  }

  lemma ModOfDecomposition(f: int, q: int, r: int)
    requires f == 60 * q + r && 0 <= r < 60
    ensures f % 60 == r
  {
  }

  /** `convert_seconds_to_srt_time`. */
  function FormatSrtTime(x: real): string
  {
    ClockText(SplitterClock(x))
  }

  /** Reading back what the splitter's formatter prints gives the whole
      seconds of a non-negative time, with milliseconds `000`. */
  lemma {:induction false} FormatSrtTimeRoundTrip(x: real)
    requires x >= 0.0
    ensures IsTimeFields(FormatSrtTime(x))
    ensures ParseTime(FormatSrtTime(x)) == x.Floor as real
    ensures SplitFields(FormatSrtTime(x))[3] == "000"
  {
    var c := SplitterClock(x);
    assert c.hours >= 0;
    ParseClockText(c);
    ZeroMillis();
  }

  lemma ZeroMillis()
    ensures FormatInt(0, 3) == "000"
  {
    var r := FormatInt(0, 3);
    FormatIntValue(0, 3);
    assert |NatToString(0)| == 1;
    ZeroNumeral(r);
    assert r[0] == '0' && r[1] == '0' && r[2] == '0';
  }

  /** Times in [0, 100 hours) print in the two-digit-hour shape that the
      block pattern captures. */
  lemma FormatSrtTimeShape(x: real)
    requires 0.0 <= x < 360000.0
    ensures IsTimeShape(FormatSrtTime(x))
  {
    ClockTextShape(SplitterClock(x));
  }

  /** For a negative time the formatter mixes a floored hour and minute with
      a truncated second: -0.5 s prints as `-1:59:00,000`, which denotes
      -60 s rather than the floor, -1 s. */
  lemma NegativeTimeSkew()
    ensures SplitterClock(-0.5) == Clock(-1, 59, 0, 0)
    ensures ClockValue(SplitterClock(-0.5)) == -60.0
  {
    assert (-0.5 / 3600.0).Floor == -1;
    assert ((-0.5 - 3600.0 * (-1) as real) / 60.0).Floor == 59;
    assert Trunc(-0.5) == 0;
  }
}

=== FILE: transcript.dfy ===
/** `split_transcript`: every recognised block is cut into chunks, the
    chunks are laid back to back inside the block's interval, and all the
    output entries are numbered from 1 across the whole transcript. The
    `max_words` parameter is never read, so it has no counterpart here. */
module Transcript {
  import opened Strings
  import opened Results
  import opened Timestamps
  import opened Chunking
  import opened Blocks

  /** One output caption: its text and its interval, in seconds. */
  datatype Caption = Caption(text: string, start: real, end: real)

  /** What `split_transcript` raises: the `ValueError` for a transcript
      with no recognisable block, or the failure of one block's chunking. */
  datatype TranscriptError = MissingTimeInformation | ChunkFailed(cause: ChunkError)

  /** Caption `i` starts where caption `i - 1` ends. */
  predicate Follows(cs: seq<Caption>, i: nat)
    requires 0 < i < |cs|
  {
    cs[i].start == cs[i - 1].end
  }

  /** `chunk_times` for one block: chunk `i` runs from
      `start + timeline` to `start + timeline + share`, and `timeline`
      then grows by that share. */
  function LayOut(chunks: seq<Chunk>, start: real, timeline: real): (r: seq<Caption>)
    ensures |r| == |chunks|
  {
    if chunks == [] then []
    else
      var c := chunks[0];
      [Caption(c.text, start + timeline, start + timeline + c.duration)]
        + LayOut(chunks[1..], start, timeline + c.duration)
  }

  /** The captions of one block are its chunks' texts, back to back: the
      first starts at `start + timeline`, each lasts its chunk's share,
      and the last ends after all the shares. */
  lemma {:induction false} LayOutBackToBack(chunks: seq<Chunk>, start: real, timeline: real)
    ensures var r := LayOut(chunks, start, timeline);
      && (forall i :: 0 <= i < |r| ==> r[i].text == chunks[i].text && r[i].end - r[i].start == chunks[i].duration)
      && (|r| > 0 ==> r[0].start == start + timeline)
      && (forall i :: 0 < i < |r| ==> Follows(r, i))
      && (|r| > 0 ==> r[|r| - 1].end == start + timeline + SumDurations(chunks))
    decreases |chunks|
  {
    if chunks != [] {
      var c := chunks[0];
      var first := Caption(c.text, start + timeline, start + timeline + c.duration);
      var rest := LayOut(chunks[1..], start, timeline + c.duration);
      var r := LayOut(chunks, start, timeline);
      LayOutBackToBack(chunks[1..], start, timeline + c.duration);
      assert r == [first] + rest;
      assert r[1..] == rest;
      assert forall i :: 1 <= i < |r| ==> r[i] == rest[i - 1];
      assert forall i :: 1 < i < |r| ==> Follows(rest, i - 1) ==> Follows(r, i);
      if rest != [] {
        assert Follows(r, 1);
        assert r[|r| - 1] == rest[|rest| - 1];
      }
    }
  }

  /** A recognised block with its interval read in seconds. */
  datatype Block = Block(start: real, end: real, text: string)

  /** `convert_srt_time_to_seconds` of both captured timestamps: each reads
      as hours·3600 + minutes·60 + seconds + milliseconds/1000 of its four
      digit groups, so neither is negative. */
  function ReadBlock(b: RawBlock): (r: Block)
    requires WellFormed(b)
    ensures r.text == b.text
    ensures r.start == ClockValue(Clock(DigitsValue(b.start[0..2]), DigitsValue(b.start[3..5]),
                                        DigitsValue(b.start[6..8]), DigitsValue(b.start[9..12])))
    ensures r.end == ClockValue(Clock(DigitsValue(b.end[0..2]), DigitsValue(b.end[3..5]),
                                      DigitsValue(b.end[6..8]), DigitsValue(b.end[9..12])))
    ensures 0.0 <= r.start && 0.0 <= r.end
  {
    ParseShape(b.start);
    ParseShape(b.end);
    Block(ParseTime(b.start), ParseTime(b.end), b.text)
  }

  /** The chunks of one block: its text split over the block's duration. */
  function BlockChunks(blk: Block, tokenize: string -> seq<string>): Result<seq<Chunk>, ChunkError>
  {
    SplitTextIntoChunks(blk.text, blk.end - blk.start, tokenize)
  }

  /** Every recognised block read, in order. */
  function ReadBlocks(bs: seq<RawBlock>): (r: seq<Block>)
    requires forall i :: 0 <= i < |bs| ==> WellFormed(bs[i])
    ensures |r| == |bs|
    ensures forall i :: 0 <= i < |r| ==> r[i] == ReadBlock(bs[i])
  {
    seq(|bs|, i requires 0 <= i < |bs| => ReadBlock(bs[i]))
  }

  /** How each block's text is cut into chunks. */
  type Chunker = Block -> Result<seq<Chunk>, ChunkError>

  /** The chunker `split_transcript` uses: `split_text_into_chunks` of the
      block's text over the block's duration. */
  function SplitterChunker(tokenize: string -> seq<string>): Chunker
  {
    blk => BlockChunks(blk, tokenize)
  }

  /** The captions of all blocks in block order, chunk order within a
      block. The first failing block aborts the transcript. */
  function AllCaptions(blocks: seq<Block>, chunker: Chunker): (r: Result<seq<Caption>, TranscriptError>)
    ensures r.Err? ==> r.error.ChunkFailed?
    ensures r.Ok? && blocks != [] ==> chunker(blocks[0]).Ok?
  {
    if blocks == [] then Ok([])
    else
      match chunker(blocks[0])
      case Err(e) => Err(ChunkFailed(e))
      case Ok(chunks) =>
        var rest := AllCaptions(blocks[1..], chunker);
        if rest.Err? then rest
        else Ok(LayOut(chunks, blocks[0].start, 0.0) + rest.value)
  }

  /** The transcript's blocks all chunk successfully exactly when the
      captions of all of them can be built. */
  lemma {:induction false} AllCaptionsOk(blocks: seq<Block>, chunker: Chunker)
    ensures AllCaptions(blocks, chunker).Ok?
        <==> forall i :: 0 <= i < |blocks| ==> chunker(blocks[i]).Ok?
  {
    if blocks != [] {
      AllCaptionsOk(blocks[1..], chunker);
      assert forall i :: 1 <= i < |blocks| ==> blocks[i] == blocks[1..][i - 1];
    }
  }

  /** Each block's captions on their own: its chunks laid out from its
      start. */
  function PerBlock(blocks: seq<Block>, chunker: Chunker): (r: seq<seq<Caption>>)
    requires forall i :: 0 <= i < |blocks| ==> chunker(blocks[i]).Ok?
    ensures |r| == |blocks|
    ensures forall i :: 0 <= i < |r| ==> r[i] == LayOut(chunker(blocks[i]).value, blocks[i].start, 0.0)
  {
    seq(|blocks|, i requires 0 <= i < |blocks| => LayOut(chunker(blocks[i]).value, blocks[i].start, 0.0))
  }

  /** When every block chunks, the transcript's captions are the blocks'
      own captions one after the other: no block's timeline depends on
      another's. */
  lemma {:induction false} AllCaptionsConcat(blocks: seq<Block>, chunker: Chunker)
    requires forall i :: 0 <= i < |blocks| ==> chunker(blocks[i]).Ok?
    ensures AllCaptions(blocks, chunker) == Ok(Concat(PerBlock(blocks, chunker)))
  {
    if blocks != [] {
      var rest := blocks[1..];
      assert forall i :: 0 <= i < |rest| ==> rest[i] == blocks[i + 1];
      AllCaptionsConcat(rest, chunker);
      var ps := PerBlock(blocks, chunker);
      assert ps == [ps[0]] + PerBlock(rest, chunker);
      ConcatCons(ps[0], PerBlock(rest, chunker));
    }
  }

  /** The captions of consecutive runs of blocks are those of each run, one
      after the other: block order is kept across the whole transcript. */
  lemma AllCaptionsAppend(a: seq<Block>, b: seq<Block>, chunker: Chunker)
    requires AllCaptions(a, chunker).Ok? && AllCaptions(b, chunker).Ok?
    ensures AllCaptions(a + b, chunker) == Ok(AllCaptions(a, chunker).value + AllCaptions(b, chunker).value)
  {
    AllCaptionsOk(a, chunker);
    AllCaptionsOk(b, chunker);
    PerBlockAppend(a, b, chunker);
    AllCaptionsConcat(a, chunker);
    AllCaptionsConcat(b, chunker);
    AllCaptionsConcat(a + b, chunker);
    ConcatAppend(PerBlock(a, chunker), PerBlock(b, chunker));
  }

  /** Every block of two chunking runs chunks, and the per-block captions
      of the runs together are those of each run. */
  lemma PerBlockAppend(a: seq<Block>, b: seq<Block>, chunker: Chunker)
    requires forall i :: 0 <= i < |a| ==> chunker(a[i]).Ok?
    requires forall i :: 0 <= i < |b| ==> chunker(b[i]).Ok?
    ensures forall i :: 0 <= i < |a + b| ==> chunker((a + b)[i]).Ok?
    ensures PerBlock(a + b, chunker) == PerBlock(a, chunker) + PerBlock(b, chunker)
  {
    forall i | 0 <= i < |a + b| ensures chunker((a + b)[i]).Ok? {
      if i >= |a| {
        assert (a + b)[i] == b[i - |a|];
      }
    }
  }

  /** The entry written for caption number `n`. */
  function Entry(n: nat, c: Caption): RawBlock
  {
    RawBlock(NatToString(n), FormatSrtTime(c.start), FormatSrtTime(c.end), c.text)
  }

  /** The entries for the captions, numbered from 1 (`new_index`). */
  function Entries(captions: seq<Caption>): seq<RawBlock>
  {
    var numbered := Enumerate(captions, 1);
    seq(|numbered|, i requires 0 <= i < |numbered| => Entry(numbered[i].0, numbered[i].1))
  }

  /** `split_transcript(transcript)` with `word_tokenize` given as
      `tokenize`. It fails with `MissingTimeInformation` exactly when no
      block is recognised. */
  function SplitTranscript(transcript: string, tokenize: string -> seq<string>): (r: Result<string, TranscriptError>)
    ensures r == Err(MissingTimeInformation) <==> FindBlocks(transcript) == []
    ensures r.Ok? <==> FindBlocks(transcript) != [] && AllCaptions(ReadBlocks(FindBlocks(transcript)), SplitterChunker(tokenize)).Ok?
  {
    var blocks := FindBlocks(transcript);
    if blocks == [] then Err(MissingTimeInformation)
    else
      var captions :- AllCaptions(ReadBlocks(blocks), SplitterChunker(tokenize));
      Ok(Document(Entries(captions)))
  }

  // ---------------------------------------------------------------------
  // Properties of the whole

  /** Within a block of non-zero length, the last caption ends exactly at
      the block's end when, and only when, the chunks' word counts add up
      to the word count of the block's text. */
  lemma BlockEndsOnTime(blk: Block, tokenize: string -> seq<string>)
    requires blk.end != blk.start
    requires SplitTextIntoChunks(blk.text, blk.end - blk.start, tokenize).Ok?
    requires SplitTextIntoChunks(blk.text, blk.end - blk.start, tokenize).value != []
    ensures var cs := LayOut(SplitTextIntoChunks(blk.text, blk.end - blk.start, tokenize).value, blk.start, 0.0);
      cs[|cs| - 1].end == blk.end <==> GroupWords(CaptionGroups(blk.text, tokenize)) == WordCount(blk.text)
  {
    var r := SplitTextIntoChunks(blk.text, blk.end - blk.start, tokenize);
    LastEndIffSum(r.value, blk.start, blk.end);
    CaptionShareSum(blk.text, blk.end - blk.start, tokenize);
  }

  /** The last caption of a block ends at `end` exactly when the chunks'
      shares add up to the time from the block's start to `end`. */
  lemma LastEndIffSum(chunks: seq<Chunk>, start: real, end: real)
    requires chunks != []
    ensures var cs := LayOut(chunks, start, 0.0);
      cs[|cs| - 1].end == end <==> SumDurations(chunks) == end - start
  {
    LayOutBackToBack(chunks, start, 0.0);
  }

  /** Captions the recogniser can read back: each text is one line and
      each time lies in [0, 100 hours), where the hours field has two
      digits. */
  predicate Printable(cs: seq<Caption>) {
    forall i :: 0 <= i < |cs| ==>
      NoNewline(cs[i].text) && 0.0 <= cs[i].start < 360000.0 && 0.0 <= cs[i].end < 360000.0
  }

  /** The output of a successful run is read back, by the same recogniser,
      as the captions numbered 1, 2, … in order, provided every caption
      is a single line and lies within [0, 100 hours). Each timestamp then
      reads back as the whole seconds of the caption's time. */
  lemma SplitTranscriptReadsBack(transcript: string, tokenize: string -> seq<string>)
    requires SplitTranscript(transcript, tokenize).Ok?
    requires Printable(AllCaptions(ReadBlocks(FindBlocks(transcript)), SplitterChunker(tokenize)).value)
    ensures var cs := AllCaptions(ReadBlocks(FindBlocks(transcript)), SplitterChunker(tokenize)).value;
      var bs := FindBlocks(SplitTranscript(transcript, tokenize).value);
      && |bs| == |cs|
      && forall i :: 0 <= i < |bs| ==>
        && bs[i].index == NatToString(i + 1)
        && bs[i].text == cs[i].text
        && IsTimeFields(bs[i].start) && ParseTime(bs[i].start) == cs[i].start.Floor as real
        && IsTimeFields(bs[i].end) && ParseTime(bs[i].end) == cs[i].end.Floor as real
  {
    var cs := AllCaptions(ReadBlocks(FindBlocks(transcript)), SplitterChunker(tokenize)).value;
    var ns := Entries(cs);
    EntriesRead(cs);
    FindBlocksRoundTrip(ns);
    assert SplitTranscript(transcript, tokenize).value == Document(ns);
  }

  /** Each entry is well formed and reads back as its caption's number,
      text and whole seconds. */
  lemma EntriesRead(cs: seq<Caption>)
    requires Printable(cs)
    ensures var ns := Entries(cs);
      && |ns| == |cs|
      && forall i :: 0 <= i < |ns| ==>
        && WellFormed(ns[i])
        && ns[i].index == NatToString(i + 1)
        && ns[i].text == cs[i].text
        && IsTimeFields(ns[i].start) && ParseTime(ns[i].start) == cs[i].start.Floor as real
        && IsTimeFields(ns[i].end) && ParseTime(ns[i].end) == cs[i].end.Floor as real
  {
    var ns := Entries(cs);
    forall i | 0 <= i < |ns|
      ensures WellFormed(ns[i])
      ensures ns[i].index == NatToString(i + 1) && ns[i].text == cs[i].text
      ensures IsTimeFields(ns[i].start) && ParseTime(ns[i].start) == cs[i].start.Floor as real
      ensures IsTimeFields(ns[i].end) && ParseTime(ns[i].end) == cs[i].end.Floor as real
    {
      assert ns[i] == Entry(i + 1, cs[i]);
      EntryRead(i + 1, cs[i]);
    }
  }

  /** One entry is well formed and reads back as its number, its text and
      the whole seconds of its interval. */
  lemma EntryRead(n: nat, c: Caption)
    requires NoNewline(c.text) && 0.0 <= c.start < 360000.0 && 0.0 <= c.end < 360000.0
    ensures var e := Entry(n, c);
      && WellFormed(e)
      && e.index == NatToString(n)
      && e.text == c.text
      && IsTimeFields(e.start) && ParseTime(e.start) == c.start.Floor as real
      && IsTimeFields(e.end) && ParseTime(e.end) == c.end.Floor as real
  {
    FormatSrtTimeShape(c.start);
    FormatSrtTimeShape(c.end);
    FormatSrtTimeRoundTrip(c.start);
    FormatSrtTimeRoundTrip(c.end);
  }
}

=== FILE: whisper_srt.dfy ===
/** The transcription script's own SubRip writer: the timestamp formatter
    `convert_to_hms`, which keeps milliseconds, the segment renderer
    `convert_seg`, and the numbering of the written entries from 1. The
    speech-to-text model is not modelled: its segments are an input. */
module WhisperSrt {
  import opened Strings
  import opened Timestamps
  import opened Blocks

  /** One transcribed segment: its interval in seconds and its text. */
  datatype Segment = Segment(start: real, end: real, text: string)

  /** Python's `divmod(x, d)` for a positive divisor, in exact arithmetic:
      the floored quotient and what is left over. */
  function DivMod(x: real, d: real): (int, real)
    requires d > 0.0
  {
    var q := (x / d).Floor;
    (q, x - d * q as real)
  }

  /** The remainder lies in [0, d) and together with the quotient gives
      back `x`. */
  lemma DivModSpec(x: real, d: real)
    requires d > 0.0
    ensures var (q, m) := DivMod(x, d);
      && 0.0 <= m < d
      && x == d * q as real + m
      && q == (x / d).Floor
  {
    FloorQuotient(x, d, (x / d).Floor);
  }

  lemma FloorQuotient(x: real, d: real, q: int)
    requires d > 0.0 && q == (x / d).Floor
    ensures d * q as real <= x < d * q as real + d
  {
    var y := x / d;
    assert q as real <= y < q as real + 1.0;
    assert d * y == x;
    MulMono(d, q as real, y);
    MulStrict(d, y, q as real + 1.0);
    assert d * (q as real + 1.0) == d * q as real + d;
    assert d * y < d * q as real + d;
    assert x < d * q as real + d;
  }

  lemma MulMono(d: real, a: real, b: real)
    requires d > 0.0 && a <= b
    ensures d * a <= d * b
  {
  }

  lemma MulStrict(d: real, a: real, b: real)
    requires d > 0.0 && a < b
    ensures d * a < d * b
  {
  }

  /** The fields `convert_to_hms` prints: hours, minutes and whole
      seconds by repeated `divmod`, and milliseconds from the fractional
      part of the seconds. */
  function HmsClock(x: real): Clock
  {
    var (hours, remainder) := DivMod(x, 3600.0);
    var (minutes, secs) := DivMod(remainder, 60.0);
    var whole := secs.Floor;
    Clock(hours, minutes, whole, ((secs - whole as real) * 1000.0).Floor)
  }

  /** The fields `convert_to_hms` prints are hours `floor(x / 3600)`,
      minutes and seconds in 0..59 that together with the hours make up
      the whole seconds of `x`, and the milliseconds
      `floor((seconds % 1) * 1000)`, which are those of `x` itself. They
      read back as a time at most one millisecond below `x`, never above
      it. */
  lemma HmsClockFields(x: real)
    ensures var c := HmsClock(x);
      && c.hours == (x / 3600.0).Floor
      && 0 <= c.minutes < 60 && 0 <= c.seconds < 60 && 0 <= c.millis < 1000
      && c.millis == ((x - x.Floor as real) * 1000.0).Floor
      && c.hours * 3600 + c.minutes * 60 + c.seconds == x.Floor
      && ClockValue(c) <= x < ClockValue(c) + 0.001
  {
    var (hours, remainder) := DivMod(x, 3600.0);
    var (minutes, secs) := DivMod(remainder, 60.0);
    DivModSpec(x, 3600.0);
    DivModSpec(remainder, 60.0);
    var frac := secs - secs.Floor as real;
    HmsFraction(x, hours, minutes, secs);
    MillisBound(frac, (frac * 1000.0).Floor);
  }

  /** The seconds left after whole hours and minutes have the same
      fractional part as the time itself. */
  lemma HmsFraction(x: real, hours: int, minutes: int, secs: real)
    requires x == 3600.0 * hours as real + (60.0 * minutes as real + secs)
    ensures secs - secs.Floor as real == x - x.Floor as real
    ensures secs.Floor == x.Floor - 3600 * hours - 60 * minutes
  {
    var n := 3600 * hours + 60 * minutes;
    assert x == secs + n as real;
    FloorShift(secs, n);
  }

  lemma FloorShift(y: real, n: int)
    ensures (y + n as real).Floor == y.Floor + n
  {
  }

  /** The milliseconds taken from a fraction in [0, 1) lie in 0..999 and
      fall short of the fraction by less than a millisecond. */
  lemma MillisBound(frac: real, millis: int)
    requires 0.0 <= frac < 1.0 && millis == (frac * 1000.0).Floor
    ensures 0 <= millis < 1000
    ensures millis as real / 1000.0 <= frac < millis as real / 1000.0 + 0.001
  {
  }

  /** `convert_to_hms(x)`: `f"{h:02}:{m:02}:{s:02},{ms:03}"`. */
  function ConvertToHms(x: real): string
  {
    ClockText(HmsClock(x))
  }

  /** For a non-negative time the text reads back as a time `v` with
      `v <= x < v + 1/1000`: minutes and seconds are two digits, the
      milliseconds three, and the hours at least two. */
  lemma ConvertToHmsReadsBack(x: real)
    requires x >= 0.0
    ensures var t := ConvertToHms(x);
      && IsTimeFields(t)
      && ParseTime(t) <= x < ParseTime(t) + 0.001
      && |SplitFields(t)[0]| >= 2 && |SplitFields(t)[1]| == 2
      && |SplitFields(t)[2]| == 2 && |SplitFields(t)[3]| == 3
      && DigitsValue(SplitFields(t)[0]) == (x / 3600.0).Floor
      && DigitsValue(SplitFields(t)[3]) == ((x - x.Floor as real) * 1000.0).Floor
  {
    var c := HmsClock(x);
    HmsClockFields(x);
    assert c.hours >= 0;
    ParseClockText(c);
    var h, m, s, ms := FormatInt(c.hours, 2), FormatInt(c.minutes, 2), FormatInt(c.seconds, 2), FormatInt(c.millis, 3);
    FormatIntValue(c.hours, 2);
    FormatIntValue(c.minutes, 2);
    FormatIntValue(c.seconds, 2);
    FormatIntValue(c.millis, 3);
    SplitFourFields(h, m, s, ms);
  }

  /** Times in [0, 100 hours) print in the two-digit-hour shape. */
  lemma ConvertToHmsShape(x: real)
    requires 0.0 <= x < 360000.0
    ensures IsTimeShape(ConvertToHms(x))
  {
    HmsClockFields(x);
    ClockTextShape(HmsClock(x));
  }

  /** The two formatters agree on hours, minutes and whole seconds of a
      non-negative time; the splitter's prints `000` where this one prints
      the milliseconds, so the splitter's reads back as the whole seconds
      and this one's as the time truncated to the millisecond. */
  lemma FormattersDifferOnlyInMillis(x: real)
    requires x >= 0.0
    ensures var a, b := SplitterClock(x), HmsClock(x);
      && a.hours == b.hours && a.minutes == b.minutes && a.seconds == b.seconds
      && a.millis == 0 && b.millis == ((x - x.Floor as real) * 1000.0).Floor
    ensures IsTimeFields(FormatSrtTime(x)) && IsTimeFields(ConvertToHms(x))
    ensures ParseTime(FormatSrtTime(x)) == x.Floor as real <= ParseTime(ConvertToHms(x))
  {
    HmsClockFields(x);
    ClocksAgree(x);
    FormatSrtTimeRoundTrip(x);
    ParseClockText(HmsClock(x));
    HmsValueAboveFloor(x);
  }

  /** Both formatters take the same hours, minutes and whole seconds. */
  lemma ClocksAgree(x: real)
    requires x >= 0.0
    ensures var a, b := SplitterClock(x), HmsClock(x);
      a.hours == b.hours && a.minutes == b.minutes && a.seconds == b.seconds
  {
    var (hours, remainder) := DivMod(x, 3600.0);
    var (minutes, secs) := DivMod(remainder, 60.0);
    DivModSpec(x, 3600.0);
    DivModSpec(remainder, 60.0);
    HmsClockFields(x);
    assert HmsClock(x).minutes == minutes;
    assert SplitterClock(x).minutes == minutes;
    HmsFraction(x, hours, minutes, secs);
    WholeSeconds(x, hours, minutes);
    assert SplitterClock(x).seconds == x.Floor % 60;
  }

  /** The milliseconds only add to the whole seconds. */
  lemma HmsValueAboveFloor(x: real)
    ensures x.Floor as real <= ClockValue(HmsClock(x))
  {
    var c := HmsClock(x);
    HmsClockFields(x);
    assert (c.hours * 3600 + c.minutes * 60 + c.seconds) as real == x.Floor as real;
    assert c.millis as real / 1000.0 >= 0.0;
  }

  /** `convert_seg(segment)`: both timestamps around the arrow, a line
      break, the text without its leading whitespace, and a blank line. */
  function ConvertSeg(s: Segment): string
  {
    ConvertToHms(s.start) + Arrow + ConvertToHms(s.end) + "\n" + LStrip(s.text) + "\n\n"
  }

  /** The entries `full_txt` collects: segment `i`, counting from 1, is
      written as `"{i}\n"` followed by its `convert_seg`. */
  function SrtEntries(segments: seq<Segment>): (r: seq<string>)
    ensures |r| == |segments|
    ensures forall i :: 0 <= i < |r| ==> r[i] == NatToString(i + 1) + "\n" + ConvertSeg(segments[i])
  {
    var numbered := Enumerate(segments, 1);
    seq(|numbered|, i requires 0 <= i < |numbered| => NatToString(numbered[i].0) + "\n" + ConvertSeg(numbered[i].1))
  }

  /** The block an entry stands for. */
  function SegmentBlock(n: nat, s: Segment): RawBlock
  {
    RawBlock(NatToString(n), ConvertToHms(s.start), ConvertToHms(s.end), LStrip(s.text))
  }

  /** An entry is exactly the SubRip layout of its block. */
  lemma EntryLayout(n: nat, s: Segment)
    ensures NatToString(n) + "\n" + ConvertSeg(s) == EntryText(SegmentBlock(n, s))
  {
    Reassociate(NatToString(n), ConvertToHms(s.start), ConvertToHms(s.end), LStrip(s.text));
  }

  lemma Reassociate(index: string, a: string, b: string, t: string)
    ensures index + "\n" + (a + Arrow + b + "\n" + t + "\n\n")
         == index + ("\n" + a + Arrow + b + "\n") + t + "\n\n"
  {
  }

  /** `f.writelines(full_txt)`: the entries written one after another. */
  function WriteLines(lines: seq<string>): string
  {
    Concat(lines)
  }

  /** Segments that read back: one-line text and times in [0, 100 hours). */
  predicate Writable(segments: seq<Segment>) {
    forall i :: 0 <= i < |segments| ==>
      && NoNewline(segments[i].text)
      && 0.0 <= segments[i].start < 360000.0 && 0.0 <= segments[i].end < 360000.0
  }

  /** The blocks the entries stand for, numbered from 1. */
  function SegmentBlocks(segments: seq<Segment>): (r: seq<RawBlock>)
    ensures |r| == |segments|
    ensures forall i :: 0 <= i < |r| ==> r[i] == SegmentBlock(i + 1, segments[i])
  {
    var numbered := Enumerate(segments, 1);
    seq(|numbered|, i requires 0 <= i < |numbered| => SegmentBlock(numbered[i].0, numbered[i].1))
  }

  /** Lines that are the entries of blocks, written one after another, are
      the document of those blocks. */
  lemma {:induction false} WriteLinesDocument(lines: seq<string>, bs: seq<RawBlock>)
    requires |lines| == |bs|
    requires forall i :: 0 <= i < |lines| ==> lines[i] == EntryText(bs[i])
    ensures WriteLines(lines) == Document(bs)
  {
    if lines != [] {
      WriteLinesDocument(lines[1..], bs[1..]);
    }
  }

  /** A timestamp that reads back to a value at most a millisecond below
      `t`. */
  predicate StampReadsBack(stamp: string, t: real) {
    IsTimeFields(stamp) && ParseTime(stamp) <= t < ParseTime(stamp) + 0.001
  }

  /** Block `b` carries segment `s` as entry number `n`: its index is `n`,
      its text is the segment's less its leading whitespace, and both
      timestamps read back to within a millisecond below the segment's. */
  predicate BlockReadsBack(b: RawBlock, n: nat, s: Segment) {
    && b.index == NatToString(n)
    && b.text == LStrip(s.text)
    && StampReadsBack(b.start, s.start)
    && StampReadsBack(b.end, s.end)
  }

  /** The splitter's block recogniser reads the transcription script's
      output back as one block per segment, numbered 1, 2, … in order,
      with the segment's text less its leading whitespace, and timestamps
      that fall short of the segment's times by less than a millisecond. */
  lemma WhisperOutputReadsBack(segments: seq<Segment>)
    requires Writable(segments)
    ensures var bs := FindBlocks(WriteLines(SrtEntries(segments)));
      && |bs| == |segments|
      && forall i :: 0 <= i < |bs| ==> BlockReadsBack(bs[i], i + 1, segments[i])
  {
    var bs := SegmentBlocks(segments);
    WrittenDocument(segments);
    SegmentBlocksRead(segments);
    FindBlocksRoundTrip(bs);
    assert FindBlocks(WriteLines(SrtEntries(segments))) == bs;
  }

  /** The written file is the document of the segments' blocks. */
  lemma WrittenDocument(segments: seq<Segment>)
    ensures WriteLines(SrtEntries(segments)) == Document(SegmentBlocks(segments))
  {
    var lines := SrtEntries(segments);
    var bs := SegmentBlocks(segments);
    forall i | 0 <= i < |lines|
      ensures lines[i] == EntryText(bs[i])
    {
      EntryLayout(i + 1, segments[i]);
    }
    WriteLinesDocument(lines, bs);
  }

  /** Every block of writable segments is well formed and reads back as its
      segment. */
  lemma SegmentBlocksRead(segments: seq<Segment>)
    requires Writable(segments)
    ensures var bs := SegmentBlocks(segments);
      forall i :: 0 <= i < |bs| ==> WellFormed(bs[i]) && BlockReadsBack(bs[i], i + 1, segments[i])
  {
    var bs := SegmentBlocks(segments);
    forall i | 0 <= i < |bs|
      ensures WellFormed(bs[i]) && BlockReadsBack(bs[i], i + 1, segments[i])
    {
      SegmentBlockReads(i + 1, segments[i]);
    }
  }

  /** One segment's block is well formed and reads back as the segment. */
  lemma SegmentBlockReads(n: nat, s: Segment)
    requires NoNewline(s.text) && 0.0 <= s.start < 360000.0 && 0.0 <= s.end < 360000.0
    ensures WellFormed(SegmentBlock(n, s)) && BlockReadsBack(SegmentBlock(n, s), n, s)
  {
    StampRead(s.start);
    StampRead(s.end);
    LStripOneLine(s.text);
    NatToStringDigits(n);
  }

  /** A time in [0, 100 hours) prints in the two-digit-hour shape and
      reads back to within a millisecond below it. */
  lemma StampRead(x: real)
    requires 0.0 <= x < 360000.0
    ensures IsTimeShape(ConvertToHms(x)) && StampReadsBack(ConvertToHms(x), x)
  {
    ConvertToHmsShape(x);
    ConvertToHmsReadsBack(x);
  }

  lemma LStripOneLine(t: string)
    requires NoNewline(t)
    ensures NoNewline(LStrip(t))
  {
    var r := LStrip(t);
    assert forall i :: 0 <= i < |r| ==> r[i] == t[LeadingSpaces(t) + i];
  }

  lemma NatToStringDigits(n: nat)
    ensures NatToString(n) != [] && IsDigits(NatToString(n))
  {
  }
}
